=== FILE: README.md ===
# Kanban board: a Dafny model of its logic

The Kanban board is a three-column task board: "К выполнению" (todo), "В работе" (in progress) and "Выполнено" (done). It has a React client and an ASP.NET Core task API. This project models the parts that carry logic, as immutable datatypes and pure functions, and proves what they promise:

- **Representation mapper** (`TaskConverter`). It translates between the wire task and the client task.
  - On the wire, status is 0/1/2 and priority is 1/2/3, as in the server's enums.
  - Tags travel as one `", "`-joined string.
  - Unknown numbers decode to the defaults `todo` and `low`.
- **Reminder scheduler** (`Notification`). Its state is the set of task ids already notified plus a table of armed timers keyed by task id.
  - Time is integer milliseconds. `differenceInMinutes` truncates toward zero.
  - A browser timer is a table entry. `Fire` is the explicit step of the host calling it back.
- **Column order** (`ColumnSort`). `sortTaskByPriority` sorts by descending priority weight, then ascending creation time. It is modelled as a stable insertion sort, because ECMAScript's `Array.prototype.sort` is stable.
- **Board transitions** (`Board`). The board has three fixed columns and these transitions: load, add, edit, two-step delete, drag start and drag end. The key invariant is that every task sits in the column of its status.
- **Task form** (`TaskModal`). It prefills or resets the form, validates the title by trimming, and trims the fields it saves.
- **Task endpoints** (`TasksController`). The five endpoints are operations on an abstract `map<int, TaskItem>` store. They return Ok, Created, NoContent, NotFound or BadRequest.

`Strings` gives ECMAScript's meaning to `trim`, `split` with a string separator, `join` and integer `toString`. `Types` holds the client's task record, and `Wrappers` holds `Option`, which stands for absent or `undefined` fields and for C# `null`.

Modelling decisions:

- **Wire encoding.** The numeric encoding of `KanbanBoard/Models/TaskItem.cs:3-15` is canonical, and the mapper follows it.
  - `client/src/services/api.ts` declares string-valued status and priority and omits `dueDate`, `hasNotification` and `tags`. It disagrees with the mapper, and the model follows the mapper.
- **Clock.** The several clock readings taken inside one client call are one `now` parameter, except in `handleSaveTask`, whose id reading (`Date.now()`) and creation-time reading (`new Date()`) are two parameters. The server's `CreateTask` also reads the clock twice and gets two parameters.
- **Fired timers.** The source never deletes a timer entry when it fires. In the model the entry stays in the table with `pending` cleared.
- **Save input.** `handleSaveTask` receives exactly the four keys the task form emits, which are title, description, status and priority. The form is its only caller. The new task's id is the decimal rendering of the first clock reading.
- **Confirm delete.** The source tests the pending id for truthiness, so confirming with a pending empty id does nothing, and the model does the same.
- **Server store.** The database generates ids. The model takes the new id as a parameter that is not yet in the store.

Behaviour of the code worth knowing, which the model keeps:

- **Board persistence.** The board keeps its tasks in the browser's `localStorage` and never calls the task API (`client/src/components/KanbanBoard.tsx:31-44`), so the board transitions here are purely local.
- **Empty tag lists.** The mapper encodes an empty tag list as `""`, which is a present field, and decodes `""` as absent (`client/src/utils/taskConverter.ts:14,26`; `TaskConverter.EmptyTagsComeBackAbsent`).
- **Reminder window.** The scheduler compares whole minutes, truncated, so a task due in less than one whole minute gets no reminder at all (`client/src/services/notification.ts:27-30`; `Notification.NothingForOverdue`).
- **Resetting reminders.** No code of the board calls the scheduler's `resetTask` (`client/src/services/notification.ts:76-85`), so `ResetTask` is modelled as a standalone operation.
- **Creation time on update.** `UpdateTask` stores the request body as it is, apart from `UpdatedAt`, so a body can overwrite `CreatedAt` (`KanbanBoard/Controllers/TasksController.cs:48-51`; `TasksController.GetAfterUpdate`).
- **Request validation.** The controller carries `[ApiController]` and `Title` is a non-nullable `string` in a nullable-enabled model (`Description` is declared `string?`). The framework's implicit `[Required]` for such a property allows empty strings, so it answers 400 only to an explicit `null` title. A missing title keeps the initializer `string.Empty`, and an empty or blank title is stored as sent (`TasksController.EmptyTitleAccepted`). `Priority` and `Status` are plain enums, so binding accepts and stores any integer (`TasksController.OutOfRangeEnumsReadLeniently`).

## Model

| member | source | states |
|---|---|---|
| Strings.Trim | client/src/components/TaskModal.tsx:31-32 | the trimmed string is the input without an all-whitespace prefix and suffix, and has no whitespace at either end |
| Strings.TrimFixpoint | client/src/utils/taskConverter.ts:14 | trimming leaves a string unchanged exactly when it already has no whitespace at either end |
| Strings.TrimEmpty | client/src/components/TaskModal.tsx:31 | a string trims to empty exactly when every character is whitespace |
| Strings.TrimIdempotent | client/src/components/TaskModal.tsx:32 | trimming twice is the same as trimming once |
| Strings.Split | client/src/utils/taskConverter.ts:14 | a split has at least one piece, its first piece is a prefix of the input, and no piece contains the separator |
| Strings.Join | client/src/utils/taskConverter.ts:26 | the empty list joins to `""`; otherwise the join starts with the first piece |
| Strings.JoinLength | client/src/utils/taskConverter.ts:26 | a join of at least one piece is as long as the pieces together plus one separator between each pair of neighbours |
| Strings.JoinSplit | client/src/utils/taskConverter.ts:14 | joining the pieces of a split with the same separator rebuilds the original string |
| Strings.IntToDecimal | client/src/utils/taskConverter.ts:6 | `toString` of an integer is a run of decimal digits, with a leading minus sign only for negatives |
| Strings.IntToDecimalRoundTrip | client/src/utils/taskConverter.ts:6 | the decimal rendering of an integer reads back as that integer |
| Strings.IntToDecimalInjective | client/src/components/KanbanBoard.tsx:72 | two integers have the same decimal rendering only if they are equal, so ids made from distinct instants differ |
| TaskConverter.StatusToApi | client/src/utils/taskConverter.ts:30-41 | every client status encodes into 0..2 |
| TaskConverter.PriorityToApi | client/src/utils/taskConverter.ts:43-54 | every client priority encodes into 1..3 |
| TaskConverter.ApiToStatus | client/src/utils/taskConverter.ts:56-67 | a number in 0..2 decodes to the status that encodes to it; any other number decodes to todo |
| TaskConverter.ApiToPriority | client/src/utils/taskConverter.ts:69-80 | a number in 1..3 decodes to the priority that encodes to it; any other number decodes to low |
| TaskConverter.StatusRoundTrip | client/src/utils/taskConverter.ts:56-67 | decoding the encoding of a status gives back that status, and the encoding is todo 0, inprogress 1, done 2 |
| TaskConverter.PriorityRoundTrip | client/src/utils/taskConverter.ts:69-80 | decoding the encoding of a priority gives back that priority, and the encoding is low 1, medium 2, high 3 |
| TaskConverter.StatusDecodeEncode | client/src/utils/taskConverter.ts:64-65 | any number outside 0..2 decodes to todo; re-encoding a decoded status is the identity on 0..2 and 0 elsewhere |
| TaskConverter.PriorityDecodeEncode | client/src/utils/taskConverter.ts:77-78 | any number outside 1..3 decodes to low; re-encoding a decoded priority is the identity on 1..3 and 1 elsewhere |
| TaskConverter.TrimAll | client/src/utils/taskConverter.ts:14 | each piece of the split is replaced by its trimmed form, position by position |
| TaskConverter.DropEmpty | client/src/utils/taskConverter.ts:14 | the filter keeps the non-empty pieces in their order (a subsequence), each as many times as it occurs, and no empty one |
| TaskConverter.DecodeTags | client/src/utils/taskConverter.ts:14 | an absent or empty wire string decodes to no tags; anything else decodes to the trimmed forms of the pieces of its split on `", "` that are not blank, in order and with multiplicity, so every tag is non-empty and trimmed |
| TaskConverter.EncodeTags | client/src/utils/taskConverter.ts:26 | an absent list encodes to an absent string, a present one (even empty) to a present string, the empty list to `""` |
| TaskConverter.EmptyTagsComeBackAbsent | client/src/utils/taskConverter.ts:26 | an empty tag list encodes to `""`, which decodes back to no tags |
| TaskConverter.SplitJoin | client/src/utils/taskConverter.ts:14 | splitting on `", "` the join of pieces that do not contain `", "` gives back the pieces |
| TaskConverter.TagsRoundTrip | client/src/utils/taskConverter.ts:14-26 | a non-empty list of trimmed, non-empty tags without `", "` comes back unchanged after encode then decode |
| TaskConverter.ApiTaskToTask | client/src/utils/taskConverter.ts:4-16 | the id is the decimal rendering of the numeric id; title, description and hasNotification pass through; an empty or absent due date decodes to none; status, priority and tags decode leniently |
| TaskConverter.TaskToCreateRequest | client/src/utils/taskConverter.ts:18-28 | title, description and hasNotification pass through; status and priority land in their wire ranges; a due date is sent exactly when present; tags are joined |
| TaskConverter.OffsetFormatShifts | client/src/utils/taskConverter.ts:24 | a due date formatted as the source does and parsed back comes back moved by the time-zone offset, so away from UTC the formatter is not a date codec |
| TaskConverter.TaskRoundTrip | client/src/utils/taskConverter.ts:4-28 | a client task encoded into a create request, echoed back by the store and decoded keeps every field, given a date format the date parser inverts |
| Notification.IsPast | client/src/services/notification.ts:15 | a date is past exactly when it is before now, and a past date is never a whole minute ahead |
| Notification.Considered | client/src/services/notification.ts:15 | a task passes the filter only with a due date, notifications on and the deadline not behind; one with a date and notifications on that fails it is at most zero whole minutes ahead |
| Notification.FilterAddsNothing | client/src/services/notification.ts:14-33 | applying the filter before `scheduleNotification` changes nothing: a dropped task would be ignored by the scheduler's own guards |
| Notification.ScheduleEach | client/src/services/notification.ts:14-18 | the setup loop delivers at most one notice per task and never forgets a notified id |
| Notification.MinutesBetween | client/src/services/notification.ts:27 | the minute difference is truncated toward zero: the whole minutes that fit between the instants, with the sign of the difference |
| Notification.MinutesThresholds | client/src/services/notification.ts:30-36 | a deadline counts as at least one minute ahead exactly when it is 60000 ms or more away, and as more than 15 minutes ahead exactly when it is 16 minutes or more away |
| Notification.Show | client/src/services/notification.ts:50-53 | showing a notification marks the id notified, leaves the timers alone and delivers one notice |
| Notification.ClearAllTimeouts | client/src/services/notification.ts:70-73 | clearing empties the timer table and keeps the notified set |
| Notification.Schedule | client/src/services/notification.ts:22-47 | without a due date or without notifications on, nothing changes; 1..15 minutes ahead marks the id and delivers one notice unless it was already notified, with no timer; more than 15 minutes ahead arms one timer for 15 minutes before the deadline, delays it at least a minute, notifies nothing and keeps the other timers; otherwise nothing changes |
| Notification.Consider | client/src/services/notification.ts:14-18 | one step of the setup loop marks the task exactly when it is due soon, arms a timer exactly when it is due later, and notifies exactly a due-soon task not yet notified |
| Notification.ScheduleEachEffect | client/src/services/notification.ts:14-18 | the setup loop adds to the notified set exactly the due-soon ids and to the timer table exactly the due-later ids, all armed now |
| Notification.ScheduleEachNotices | client/src/services/notification.ts:14-18 | the setup loop notifies each due-soon id that was not yet notified, exactly once, and nothing else |
| Notification.ScheduleEachNoticeOrder | client/src/services/notification.ts:14-63 | the notices of the setup loop are in task order (a subsequence of one notice per due-soon task) and each carries the title of the first due-soon task with its id, since showing it marks the id |
| Notification.SetupNotifications | client/src/services/notification.ts:9-18 | after setup the timer table holds exactly the timers of the tasks due later, all armed now, each firing 15 minutes before the deadline of the last due-later task with its id and carrying that task's title; every due-soon task is marked notified; the notices are distinct, fresh, cover every fresh due-soon task, come in task order and each carries the title of the first due-soon task with its id |
| Notification.Fire | client/src/services/notification.ts:41-45 | a pending timer, when fired, marks its id notified and notifies only when the id was not yet notified; a missing or spent timer does nothing; other timers are untouched |
| Notification.ResetTask | client/src/services/notification.ts:76-85 | reset removes the id from the notified set and its timer from the table and leaves every other timer as it was |
| Notification.SetupIsIdempotent | client/src/services/notification.ts:30-32 | a second setup never notifies again a task the first setup found due soon, and at the same instant it notifies nothing |
| Notification.NothingNewWhenNotified | client/src/services/notification.ts:30 | when every due-soon id is already notified, the setup loop delivers no notice |
| Notification.NothingForOverdue | client/src/services/notification.ts:27-36 | a task due less than a minute ahead, or already past, yields neither a notice nor a timer |
| Notification.ImmediateNotice | client/src/services/notification.ts:29-33 | a fresh task due in 1..15 minutes is notified at once, exactly once, and no timer is armed |
| Notification.TimerFiresOnce | client/src/services/notification.ts:36-45 | a task due later arms one timer for 15 minutes before the deadline and notifies nothing; firing it notifies once, and firing it again notifies nothing |
| Notification.ResetAllowsNewNotice | client/src/services/notification.ts:76-78 | an already notified task due soon is not notified again, but after a reset the next setup notifies it |
| Notification.ResetIsolated | client/src/services/notification.ts:76-85 | resetting one id leaves every other id's notified mark and timer unchanged |
| Notification.HostDelay | client/src/services/notification.ts:41-45 | the host waits a delay in 0..2^31-1; a requested delay in that range is honoured, and one in 2^31..2^32-1 becomes 0 |
| Notification.FarDeadlineFiresAtOnce | client/src/services/notification.ts:36-45 | as written, a task due 30 days ahead gets a timer meant for 15 minutes before the deadline, but the host calls it back at once and it notifies |
| Notification.ArmDelay | client/src/services/notification.ts:41-45 | corrected arming asks for no more than the requested delay and the host limit, and the host honours what it asks for |
| Notification.Wake | client/src/services/notification.ts:41-45 | a corrected callback that runs before the reminder instant re-arms for the rest of the wait and notifies nothing; on or after the instant it behaves as the source's callback |
| Notification.FarDeadlineCorrected | client/src/services/notification.ts:36-45 | with corrected timers the 30-days-ahead task gets no notice at its first callback, and gets its one notice at 15 minutes before the deadline |
| ColumnSort.Weight | client/src/components/Column.tsx:19 | each priority weighs the number the server's enum gives it: low 1, medium 2, high 3 |
| ColumnSort.Compare | client/src/components/Column.tsx:20-24 | the comparator is negative exactly when the first task has the higher weight, or the same weight and an earlier creation, and zero exactly when both keys are equal |
| ColumnSort.CompareIsTotalPreorder | client/src/components/Column.tsx:20-24 | the comparator puts a task first exactly when its weight is higher, or equal with an earlier creation; it ties exactly on equal weight and creation time, and it is transitive |
| ColumnSort.Sort | client/src/components/Column.tsx:20 | the sort returns a permutation of its input |
| ColumnSort.SortSorted | client/src/components/Column.tsx:20-24 | the sorted list is in comparator order for every pair, not only for adjacent ones |
| ColumnSort.SortStable | client/src/components/Column.tsx:20 | tasks the comparator ties keep their input order |
| ColumnSort.SortTaskByPriority | client/src/components/Column.tsx:18-25 | the column's order is a permutation with weight non-increasing, creation non-decreasing within one priority, every adjacent pair ordered, and tied tasks in input order |
| ColumnSort.MixedPrioritiesExample | client/src/components/Column.tsx:18-25 | low, high and medium tasks created in that order show as high, medium, low |
| TaskModal.Prefill | client/src/components/TaskModal.tsx:17-27 | with no task the form resets to empty title, empty description and medium; with a task it copies the title and priority, and the description with a missing one read as empty |
| TaskModal.Submit | client/src/components/TaskModal.tsx:29-35 | a blank title saves nothing; otherwise it saves the trimmed non-empty title, the trimmed description, the status prop and the chosen priority |
| TaskModal.UntouchedEditSavesSameFields | client/src/components/TaskModal.tsx:17-35 | after the effect has prefilled the form from a task with trimmed fields, saving unchanged saves its own title, description (empty when missing), status and priority |
| TaskModal.Mount | client/src/components/TaskModal.tsx:13-27 | the first render prefills the fields from the initial task prop and records that the effect ran for it |
| TaskModal.Rerender | client/src/components/TaskModal.tsx:17-27 | a render re-runs the prefill only when the task prop changed since the effect last ran; otherwise the fields keep what they hold |
| TaskModal.SecondAddKeepsDraft | client/src/components/TaskModal.tsx:17-37 | a second add after an add opens with the previous draft's fields, because the prop stays at no task |
| TaskModal.ReopenKeepsAbandonedTyping | client/src/components/TaskModal.tsx:17-37 | reopening the same task after a cancelled edit shows the abandoned typing, not the task |
| TaskModal.UntouchedEditAfterEffect | client/src/components/TaskModal.tsx:17-35 | opening a task the effect did not last run for and saving unchanged saves the task's own fields |
| TaskModal.ResetFormIsRejected | client/src/components/TaskModal.tsx:22-31 | a freshly reset form cannot be saved |
| Board.AllTasks | client/src/components/KanbanBoard.tsx:46-48 | the flattened board holds every task of every column and nothing else |
| Board.WithStatus | client/src/components/KanbanBoard.tsx:37 | the filter keeps the tasks of the given status in their order (a subsequence), each as many times as it occurs, and no other task |
| Board.RemoveId | client/src/components/KanbanBoard.tsx:93 | the filter keeps the tasks with another id in their order (a subsequence), each as many times as it occurs, and drops as many tasks as carry that id |
| Board.ReplaceById | client/src/components/KanbanBoard.tsx:67 | each task with the updated task's id is replaced in place; the others are unchanged |
| Board.Find | client/src/components/KanbanBoard.tsx:121 | a found task is the first one on the list with the id asked for; nothing found means no task has that id |
| Board.MapColumns | client/src/components/KanbanBoard.tsx:65-68 | mapping over the columns keeps their number, order, ids, titles and statuses |
| Board.OneColumnPerStatus | client/src/components/KanbanBoard.tsx:17-21 | the board's layout has exactly one column of each status |
| Board.Load | client/src/components/KanbanBoard.tsx:31-40 | with nothing saved the board is unchanged; otherwise each column holds the saved tasks of its status, in saved order and with multiplicity, so every task matches its column |
| Board.LoadPartitions | client/src/components/KanbanBoard.tsx:35-38 | load places every saved task in exactly one column: the board's tasks are a permutation of the saved ones |
| Board.HandleAddTask | client/src/components/KanbanBoard.tsx:50-54 | adding opens the form for a new task aimed at the given column, without touching the columns |
| Board.HandleEditTask | client/src/components/KanbanBoard.tsx:56-60 | editing opens the form on the task, aimed at the task's own status, without touching the columns |
| Board.Patch | client/src/components/KanbanBoard.tsx:64 | the edited task takes title, description, status and priority from the form and keeps its id, creation time, due date, notification flag and tags |
| Board.NewTask | client/src/components/KanbanBoard.tsx:71-75 | a new task takes the form's title, description, status and priority, has no due date, flag or tags; its id parses back to the first clock reading and its creation time is the second |
| Board.NewTaskIdIsCreationTime | client/src/components/KanbanBoard.tsx:71-75 | a new task's id reads back as its creation time exactly when the two clock readings agree |
| Board.SaveTask | client/src/components/KanbanBoard.tsx:62-83 | when editing, every task with the edited id is replaced in place by the patched task and nothing else changes; otherwise the new task is appended to the column of the current status only |
| Board.CloseModal | client/src/components/KanbanBoard.tsx:161 | closing the form changes nothing but the open flag |
| Board.AddKeepsStatuses | client/src/components/KanbanBoard.tsx:71-80 | adding keeps every task in the column of its status exactly when the saved status is the form's current status |
| Board.EditKeepsStatuses | client/src/components/KanbanBoard.tsx:63-68 | editing keeps every task in the column of its status when the saved status is that of every column holding the edited id |
| Board.EditAsWiredKeepsStatuses | client/src/components/KanbanBoard.tsx:56-68 | editing a task of a board with unique ids, saved with the status the form was opened with, keeps every task in the column of its status |
| Board.HandleDeleteTask | client/src/components/KanbanBoard.tsx:85-87 | a delete request only records the pending id |
| Board.ConfirmDelete | client/src/components/KanbanBoard.tsx:89-98 | confirming with a pending (non-empty) id makes each column its own tasks without that id, in order and with multiplicity (`RemoveId`), and clears the marker; with none pending it does nothing |
| Board.CancelDelete | client/src/components/KanbanBoard.tsx:100-102 | cancelling clears the marker and changes nothing else |
| Board.DeleteIsTwoStep | client/src/components/KanbanBoard.tsx:85-102 | a request alone leaves the columns; request then cancel leaves them and clears the marker; request then confirm makes each column its tasks without that id, in order; a confirm after a cancel does nothing |
| Board.ConfirmDeleteKeepsStatuses | client/src/components/KanbanBoard.tsx:89-98 | a confirmed delete keeps every remaining task in the column of its status |
| Board.HandleDragStart | client/src/components/KanbanBoard.tsx:104-108 | drag start records the first task of the board, in column order, with the dragged id, or none when no task has it |
| Board.HandleDragEnd | client/src/components/KanbanBoard.tsx:110-135 | a drop outside every column, an unknown id or the task's own status leave the columns; otherwise the task leaves every column and is appended, with the new status, to the target column; the dragged task is cleared |
| Board.DragKeepsStatuses | client/src/components/KanbanBoard.tsx:123-130 | a drag keeps every task in the column of its status |
| Board.MoveCount | client/src/components/KanbanBoard.tsx:125-130 | a move removes every copy of the id and adds one copy per target column |
| Board.DragKeepsCount | client/src/components/KanbanBoard.tsx:123-130 | on the three-column board with unique ids, a drag keeps the number of tasks |
| TasksController.GetTasks | KanbanBoard/Controllers/TasksController.cs:19-23 | listing returns Ok with every stored record, as many as the store holds, nothing else, and each stored key's record exactly once |
| TasksController.GetTaskById | KanbanBoard/Controllers/TasksController.cs:25-31 | NotFound exactly when the id is absent, otherwise Ok with the stored record |
| TasksController.CreateTask | KanbanBoard/Controllers/TasksController.cs:8-43 | BadRequest with the store unchanged exactly when the title is an explicit `null`; otherwise Created with the body under a fresh id, both timestamps overwritten with the clock readings, and the store gains exactly that record |
| TasksController.UpdateTask | KanbanBoard/Controllers/TasksController.cs:45-64 | BadRequest exactly on an explicit `null` title or an id mismatch, NotFound exactly on an absent id, both with the store unchanged; otherwise NoContent with the record replaced by the body stamped now |
| TasksController.DeleteTask | KanbanBoard/Controllers/TasksController.cs:66-76 | NotFound with the store unchanged exactly on an absent id; otherwise NoContent with exactly that record removed |
| TasksController.EndpointsKeepStoreKeyed | KanbanBoard/Controllers/TasksController.cs:33-76 | create, update and delete keep every record filed under its own id |
| TasksController.GetAfterCreate | KanbanBoard/Controllers/TasksController.cs:33-43 | a created record reads back as returned, and every other id reads back as before |
| TasksController.GetAfterUpdate | KanbanBoard/Controllers/TasksController.cs:45-64 | an accepted update reads back as the body with the new timestamp |
| TasksController.OutOfRangeEnumsReadLeniently | KanbanBoard/Controllers/TasksController.cs:33-43 | a status or priority outside the named enum values is stored as sent, and the client reads it back as todo or low |
| TasksController.NullTitleRefused | KanbanBoard/Controllers/TasksController.cs:8-64 | an explicit `null` title makes both writing endpoints answer BadRequest and leave the store alone |
| TasksController.BindTitle | KanbanBoard/Models/TaskItem.cs:20 | the bound title is null exactly for an explicit `null`; a missing title is the initializer's `""` and a string is kept as sent |
| TasksController.EmptyTitleAccepted | KanbanBoard/Models/TaskItem.cs:20 | a missing, empty or blank title passes validation: create answers Created and stores the title as bound, and an update of a stored id answers NoContent |
| TasksController.DeleteThenGone | KanbanBoard/Controllers/TasksController.cs:66-76 | after a delete the id is not found, a second delete is NotFound, and the store has one record fewer |

## Left out

- Date conversion in the mapper. `new Date(...)` parsing and the offset-compensated `toISOString` depend on the host's time zone, so they are parameters. Invalid dates (`NaN`) are not modelled.
- TaskConverter.TaskRoundTrip: it holds only under the hypothesis that the due-date formatter and the parser form a codec, and the source's own pair is not one. The formatter writes `d - getTimezoneOffset()·60000` as a UTC string (`client/src/utils/taskConverter.ts:24`) and `new Date` reads that instant back (`:12`), so away from UTC a due date drifts by the offset on every trip (`TaskConverter.OffsetFormatShifts`). The store is also a verbatim echo, while the server's record has no due date, notification flag or tags (`KanbanBoard/Models/TaskItem.cs:16-25`), so through the real API those three fields never come back at all.
- Notification delivery. The browser `Notification` API, its permission state and `alert` are reduced to an abstract `Notice` event. Real timer scheduling is reduced to the timer table plus the explicit `Fire` step, or `Wake` for the corrected timers.
- Notification.Schedule: it does not model the leaked timer. When two tasks with the same id are both due later, the second overwrites the first's table entry and the first timer is never cancelled. The model keeps only the last entry.
- Persistence to `localStorage`. This covers the `saveTasks` calls, the stale `getAllTasks()` snapshot they use, and the `JSON.parse` of saved tasks, which gives back `createdAt` as a string rather than a `Date`. Load takes the saved tasks as an already decoded optional list.
- The dnd-kit sensors, the `DragOverlay` and every JSX rendering, including what the form's `isOpen` early return hides. The form's fields, which that return leaves alive, are modelled by `TaskModal.Mounted`.
- `client/src/services/api.ts`. It is HTTP plumbing, and its type declarations disagree with the mapper.
- Entity Framework Core and SQLite specifics: how ids are allocated, which columns the ORM writes, column length limits, and the rethrow of a concurrency exception on an id that still exists. The server's record has no due date, notification flag or tags.
- TasksController.BodyValid: it models only the implicit `[Required]` on `Title` (empty strings allowed), which rests on nullable reference types being enabled for the model; the project file is not part of this model. Other binding failures (malformed JSON, a non-integer enum, an unparsable date) also answer 400 and are not modelled.
- TasksController.GetTasks: it promises no order for the listed records, because the database returns them in an unspecified order.
- TaskModal.Prefill: the effect runs only when the `task` prop changes, not on every opening. So a second add after an add opens with the previous draft's title, description and priority (`TaskModal.SecondAddKeepsDraft`), and reopening the same task after a cancelled edit shows the abandoned typing (`TaskModal.ReopenKeepsAbandonedTyping`). React compares the prop by object identity; the model compares task values, so two distinct but equal task objects count as the same prop.
- TaskModal.UntouchedEditSavesSameFields: it holds only after the effect has prefilled the form from the task (`TaskModal.UntouchedEditAfterEffect`); a reopening that does not re-run the effect submits whatever the fields hold. The form's fields are not part of the board's state; the component is modelled on its own with the prop as a parameter.
- `KanbanBoard/Program.cs`, `client/src/App.tsx`, the theme context and toggle, `TaskCard.tsx` and `SearchAndFilter.tsx`. They hold wiring and presentation only.

## Findings

| source | as written | input that shows it | evidently intended | confidence | as-written member | corrected member |
|---|---|---|---|---|---|---|
| client/src/services/notification.ts:36-45 | the timer is armed with `window.setTimeout(cb, timeToNotify)`; browsers convert the delay to a signed 32-bit integer and treat a negative one as 0 | a task due 30 days ahead: the delay is 2 591 100 000 ms, above 2^31-1, so the callback runs at once and the "15 minutes left" notice appears 30 days early | the reminder appears 15 minutes before the deadline whatever the distance, e.g. by arming at most 2^31-1 ms and re-arming until the reminder instant | not executed; Web IDL `long` conversion and the HTML timer steps | Notification.FarDeadlineFiresAtOnce | Notification.Wake |

=== FILE: column_sort.dfy ===
/**
 * The order in which a column shows its tasks (`sortTaskByPriority` in
 * client/src/components/Column.tsx): a stable sort of a copy of the column's
 * tasks by descending priority weight, then ascending creation time.
 * ECMAScript's `Array.prototype.sort` is stable, so the model is a stable
 * insertion sort; sequences are values, so the column itself is never changed.
 */
module ColumnSort {
  import opened Types
  import opened TaskConverter

  /** `priorityOrder`: high 3, medium 2, low 1, the numbers the server's enum gives the priorities. */
  function Weight(p: Priority): (w: int)
    ensures w == PriorityToApi(p)
  {
    match p
    case High => 3
    case Medium => 2
    case Low => 1
  }

  /**
   * The comparator: negative exactly when `a` has the higher priority, or the
   * same priority and an earlier creation time; zero exactly when they tie.
   */
  function Compare(a: Task, b: Task): (c: int)
    ensures c < 0 <==> Weight(a.priority) > Weight(b.priority)
                       || (Weight(a.priority) == Weight(b.priority) && a.createdAt < b.createdAt)
    ensures c == 0 <==> Weight(a.priority) == Weight(b.priority) && a.createdAt == b.createdAt
  {
    var priorityDiff := Weight(b.priority) - Weight(a.priority);
    if priorityDiff != 0 then priorityDiff else a.createdAt - b.createdAt
  }

  /** Two tasks the comparator cannot tell apart. */
  predicate SameKey(a: Task, b: Task) {
    Weight(a.priority) == Weight(b.priority) && a.createdAt == b.createdAt
  }

  /** Every pair, not just every adjacent pair, is in comparator order. */
  predicate Sorted(ts: seq<Task>) {
    forall i, j :: 0 <= i < j < |ts| ==> Compare(ts[i], ts[j]) <= 0
  }

  /** The tasks of `ts` that tie with `k`, in their order in `ts`. */
  function Ties(ts: seq<Task>, k: Task): (r: seq<Task>)
  {
    if |ts| == 0 then []
    else (if SameKey(ts[0], k) then [ts[0]] else []) + Ties(ts[1..], k)
  }

  /** The comparator is a total preorder whose ties are exactly `SameKey`. */
  lemma CompareIsTotalPreorder(a: Task, b: Task, c: Task)
    ensures Compare(a, b) < 0 <==>
              (Weight(a.priority) > Weight(b.priority)
               || (Weight(a.priority) == Weight(b.priority) && a.createdAt < b.createdAt))
    ensures Compare(a, b) == 0 <==> SameKey(a, b)
    ensures Compare(a, b) > 0 <==> Compare(b, a) < 0
    ensures Compare(a, b) <= 0 && Compare(b, c) <= 0 ==> Compare(a, c) <= 0
    ensures Compare(a, b) < 0 && Compare(b, c) <= 0 ==> Compare(a, c) < 0
  {
  }

  /** Inserts `x` after every element that does not compare greater than it. */
  function Insert(x: Task, ts: seq<Task>): (r: seq<Task>)
    ensures multiset(r) == multiset(ts) + multiset{x}
  {
    if |ts| == 0 then [x]
    else if Compare(x, ts[0]) < 0 then [x] + ts
    else
      assert ts == [ts[0]] + ts[1..];
      [ts[0]] + Insert(x, ts[1..])
  }

  /** Stable insertion sort: each element goes after the equal ones already placed. */
  function Sort(ts: seq<Task>): (r: seq<Task>)
    ensures multiset(r) == multiset(ts)
  {
    if |ts| == 0 then []
    else
      assert ts == ts[..|ts| - 1] + [ts[|ts| - 1]];
      Insert(ts[|ts| - 1], Sort(ts[..|ts| - 1]))
  }

  lemma {:induction false} InsertSorted(x: Task, ts: seq<Task>)
    requires Sorted(ts)
    ensures Sorted(Insert(x, ts))
    decreases |ts|
  {
    if |ts| > 0 {
      if Compare(x, ts[0]) < 0 {
        forall j | 0 <= j < |ts|
          ensures Compare(x, ts[j]) <= 0
        {
          CompareIsTotalPreorder(x, ts[0], ts[j]);
        }
        ConsSorted(x, ts);
      } else {
        var tail := Insert(x, ts[1..]);
        SortedTail(ts);
        InsertSorted(x, ts[1..]);
        forall j | 0 <= j < |tail|
          ensures Compare(ts[0], tail[j]) <= 0
        {
          HeadBelowInserted(x, ts, tail[j]);
        }
        ConsSorted(ts[0], tail);
      }
    }
  }

  /** An element inserted behind the head of a sorted list, or already behind it, is not below the head. */
  lemma HeadBelowInserted(x: Task, ts: seq<Task>, y: Task)
    requires Sorted(ts) && |ts| > 0 && Compare(x, ts[0]) >= 0
    requires y in multiset(Insert(x, ts[1..]))
    ensures Compare(ts[0], y) <= 0
  {
    if y == x {
      CompareIsTotalPreorder(x, ts[0], x);
    } else {
      assert y in multiset(ts[1..]);
      var k :| 0 <= k < |ts[1..]| && ts[1..][k] == y;
      assert ts[k + 1] == y;
    }
  }

  /** A sorted list stays sorted behind a head that is not above any of its elements. */
  lemma ConsSorted(head: Task, ts: seq<Task>)
    requires Sorted(ts)
    requires forall j :: 0 <= j < |ts| ==> Compare(head, ts[j]) <= 0
    ensures Sorted([head] + ts)
  {
    var r := [head] + ts;
    forall i, j | 0 <= i < j < |r|
      ensures Compare(r[i], r[j]) <= 0
    {
      assert r[j] == ts[j - 1];
      if i > 0 {
        assert r[i] == ts[i - 1];
      }
    }
  }

  lemma {:induction false} SortSorted(ts: seq<Task>)
    ensures Sorted(Sort(ts))
    decreases |ts|
  {
    if |ts| > 0 {
      SortSorted(ts[..|ts| - 1]);
      InsertSorted(ts[|ts| - 1], Sort(ts[..|ts| - 1]));
    }
  }

  /** Selecting the ties of a concatenation selects from each part. */
  lemma {:induction false} TiesAppend(a: seq<Task>, b: seq<Task>, k: Task)
    ensures Ties(a + b, k) == Ties(a, k) + Ties(b, k)
    decreases |a|
  {
    if |a| > 0 {
      assert (a + b)[1..] == a[1..] + b;
      TiesAppend(a[1..], b, k);
    } else {
      assert a + b == b;
    }
  }

  lemma SortedTail(ts: seq<Task>)
    requires Sorted(ts) && |ts| > 0
    ensures Sorted(ts[1..])
  {
    forall i, j | 0 <= i < j < |ts[1..]|
      ensures Compare(ts[1..][i], ts[1..][j]) <= 0
    {
      assert ts[1..][i] == ts[i + 1] && ts[1..][j] == ts[j + 1];
    }
  }

  /** Inserting `x` into a sorted list puts it after every element that ties with it. */
  lemma {:induction false} InsertTies(x: Task, ts: seq<Task>, k: Task)
    requires Sorted(ts)
    ensures Ties(Insert(x, ts), k) == Ties(ts, k) + Ties([x], k)
    decreases |ts|
  {
    if |ts| == 0 {
      assert Ties([x], k) == [] + Ties([x], k);
    } else if Compare(x, ts[0]) < 0 {
      InsertTiesFront(x, ts, k);
    } else {
      SortedTail(ts);
      InsertTies(x, ts[1..], k);
      InsertTiesBehind(x, ts, k);
    }
  }

  /** The inductive step of `InsertTies` when `x` goes behind the head. */
  lemma InsertTiesBehind(x: Task, ts: seq<Task>, k: Task)
    requires |ts| > 0 && Compare(x, ts[0]) >= 0
    requires Ties(Insert(x, ts[1..]), k) == Ties(ts[1..], k) + Ties([x], k)
    ensures Ties(Insert(x, ts), k) == Ties(ts, k) + Ties([x], k)
  {
    var head := Ties([ts[0]], k);
    InsertBehind(x, ts);
    TiesAppend([ts[0]], Insert(x, ts[1..]), k);
    TiesAppend([ts[0]], ts[1..], k);
    assert [ts[0]] + ts[1..] == ts;
    AppendAssoc(head, Ties(ts[1..], k), Ties([x], k));
  }

  lemma AppendAssoc(a: seq<Task>, b: seq<Task>, c: seq<Task>)
    ensures a + (b + c) == (a + b) + c
  {
  }

  /** An element that does not come before the head is inserted behind it. */
  lemma InsertBehind(x: Task, ts: seq<Task>)
    requires |ts| > 0 && Compare(x, ts[0]) >= 0
    ensures Insert(x, ts) == [ts[0]] + Insert(x, ts[1..])
  {
  }

  lemma InsertTiesFront(x: Task, ts: seq<Task>, k: Task)
    requires Sorted(ts) && |ts| > 0 && Compare(x, ts[0]) < 0
    ensures Ties(Insert(x, ts), k) == Ties(ts, k) + Ties([x], k)
  {
    TiesAppend([x], ts, k);
    if SameKey(x, k) {
      NoTiesAbove(x, ts, k);
      assert Ties(ts, k) == [];
    } else {
      assert Ties([x], k) == [];
    }
  }

  /** Nothing in a sorted list that starts above `x` ties with `x`. */
  lemma {:induction false} NoTiesAbove(x: Task, ts: seq<Task>, k: Task)
    requires Sorted(ts) && |ts| > 0 && Compare(x, ts[0]) < 0 && SameKey(x, k)
    ensures Ties(ts, k) == []
    decreases |ts|
  {
    CompareIsTotalPreorder(x, ts[0], ts[0]);
    if |ts| > 1 {
      CompareIsTotalPreorder(x, ts[0], ts[1]);
      SortedTail(ts);
      NoTiesAbove(x, ts[1..], k);
    }
  }

  lemma {:induction false} SortStable(ts: seq<Task>, k: Task)
    ensures Ties(Sort(ts), k) == Ties(ts, k)
    decreases |ts|
  {
    if |ts| > 0 {
      var prefix := ts[..|ts| - 1];
      var last := ts[|ts| - 1];
      SortStable(prefix, k);
      SortSorted(prefix);
      InsertTies(last, Sort(prefix), k);
      SortLast(ts);
      SplitLast(ts);
      TiesAppend(prefix, [last], k);
    }
  }

  /** Sorting a non-empty list inserts its last element into the sorted rest. */
  lemma SortLast(ts: seq<Task>)
    requires |ts| > 0
    ensures Sort(ts) == Insert(ts[|ts| - 1], Sort(ts[..|ts| - 1]))
  {
  }

  lemma SplitLast(ts: seq<Task>)
    requires |ts| > 0
    ensures ts == ts[..|ts| - 1] + [ts[|ts| - 1]]
  {
  }

  /**
   * `sortTaskByPriority`: a permutation of the column's tasks with higher
   * priority first, earlier creation first among equal priorities, and tasks
   * the comparator ties left in their original order.
   */
  function SortTaskByPriority(tasks: seq<Task>): (r: seq<Task>)
    ensures multiset(r) == multiset(tasks)
    ensures forall i, j :: 0 <= i < j < |r| ==> Weight(r[i].priority) >= Weight(r[j].priority)
    ensures forall i, j :: 0 <= i < j < |r| && r[i].priority == r[j].priority ==> r[i].createdAt <= r[j].createdAt
    ensures forall i :: 0 <= i < |r| - 1 ==> Compare(r[i], r[i + 1]) <= 0
    ensures forall k :: Ties(r, k) == Ties(tasks, k)
  {
    SortSorted(tasks);
    forall k
      ensures Ties(Sort(tasks), k) == Ties(tasks, k)
    {
      SortStable(tasks, k);
    }
    Sort(tasks)
  }

  /** Low t1, High t2, Medium t3 created in that order show as t2, t3, t1. */
  lemma MixedPrioritiesExample(t1: Task, t2: Task, t3: Task)
    requires t1.priority == Low && t2.priority == High && t3.priority == Medium
    requires t1.createdAt < t2.createdAt < t3.createdAt
    ensures SortTaskByPriority([t1, t2, t3]) == [t2, t3, t1]
  {
    SortLast([t1, t2, t3]);
    assert [t1, t2, t3][..2] == [t1, t2];
    SortLast([t1, t2]);
    assert [t1, t2][..1] == [t1];
    assert Sort([t1]) == [t1];
    InsertBehindHigher(t1, t2, t3);
  }

  /** The insertions of the example: the high task goes first, the medium one between. */
  lemma InsertBehindHigher(low: Task, high: Task, medium: Task)
    requires low.priority == Low && high.priority == High && medium.priority == Medium
    ensures Insert(high, [low]) == [high, low]
    ensures Insert(medium, [high, low]) == [high, medium, low]
  {
    assert [high, low][1..] == [low];
  }
}

=== FILE: kanban_board.dfy ===
/**
 * The board's view state and its transitions (client/src/components/KanbanBoard.tsx):
 * three fixed columns, the modal's target, the pending deletion and the
 * dragged task. Every transition rebuilds the columns by mapping over them;
 * a `ColumnUpdate` names what that map does to one column's tasks.
 * Persistence to the browser's storage is not modelled.
 */
module Board {
  import opened Wrappers
  import opened Strings
  import opened Types
  import opened TaskModal
  import opened Sequences

  datatype Column = Column(id: string, title: string, status: Status, tasks: seq<Task>)

  datatype BoardState = BoardState(
    columns: seq<Column>,
    modalOpen: bool,
    editing: Option<Task>,
    currentStatus: Status,
    deleteConfirm: Option<string>,
    activeTask: Option<Task>)

  const InitialColumns: seq<Column> := [
    Column("1", "К выполнению", Todo, []),
    Column("2", "В работе", InProgress, []),
    Column("3", "Выполнено", Done, [])
  ]

  const Initial: BoardState := BoardState(InitialColumns, false, None, Todo, None, None)

  // ---------------------------------------------------------------------------
  // Invariants

  /** Same number of columns with the same ids, titles and statuses, in the same order. */
  predicate SameLayout(a: seq<Column>, b: seq<Column>) {
    |a| == |b| && forall i :: 0 <= i < |a| ==>
      a[i].id == b[i].id && a[i].title == b[i].title && a[i].status == b[i].status
  }

  /** Exactly the three columns todo, inprogress, done, in that order. */
  predicate WellFormed(cols: seq<Column>) {
    SameLayout(cols, InitialColumns)
  }

  /** Every task's status is the status of the column that holds it. */
  predicate StatusesMatch(cols: seq<Column>) {
    forall i :: 0 <= i < |cols| ==> forall t :: t in cols[i].tasks ==> t.status == cols[i].status
  }

  predicate UniqueIds(ts: seq<Task>) {
    forall i, j :: 0 <= i < j < |ts| ==> ts[i].id != ts[j].id
  }

  // ---------------------------------------------------------------------------
  // Task-list helpers

  /** `flatMap(col => col.tasks)`: every task on the board, column by column. */
  function AllTasks(cols: seq<Column>): (r: seq<Task>)
    ensures forall i, t :: 0 <= i < |cols| && t in cols[i].tasks ==> t in r
    ensures forall t :: t in r ==> exists i :: 0 <= i < |cols| && t in cols[i].tasks
  {
    if |cols| == 0 then []
    else
      var rest := AllTasks(cols[1..]);
      assert forall i :: 1 <= i < |cols| ==> cols[i] == cols[1..][i - 1];
      cols[0].tasks + rest
  }

  function CountId(ts: seq<Task>, id: string): nat
  {
    if |ts| == 0 then 0 else (if ts[0].id == id then 1 else 0) + CountId(ts[1..], id)
  }

  /** `filter(task => task.status === status)`: the tasks of that status, in order, each as often as in `ts`. */
  function WithStatus(ts: seq<Task>, status: Status): (r: seq<Task>)
    ensures Subsequence(r, ts)
    ensures forall t :: multiset(r)[t] == if t.status == status then multiset(ts)[t] else 0
    ensures forall t :: t in r <==> t in ts && t.status == status
  {
    if |ts| == 0 then []
    else
      var rest := WithStatus(ts[1..], status);
      var r := if ts[0].status == status then [ts[0]] + rest else rest;
      FilterStep(ts, rest, (t: Task) => t.status == status);
      FilterMembers(ts, r, (t: Task) => t.status == status);
      r
  }

  /** `filter(t => t.id !== id)`: the other tasks, in order, each as often as in `ts`. */
  function RemoveId(ts: seq<Task>, id: string): (r: seq<Task>)
    ensures Subsequence(r, ts)
    ensures forall t :: multiset(r)[t] == if t.id != id then multiset(ts)[t] else 0
    ensures forall t :: t in r <==> t in ts && t.id != id
    ensures |r| + CountId(ts, id) == |ts|
  {
    if |ts| == 0 then []
    else
      var rest := RemoveId(ts[1..], id);
      var r := if ts[0].id != id then [ts[0]] + rest else rest;
      FilterStep(ts, rest, (t: Task) => t.id != id);
      FilterMembers(ts, r, (t: Task) => t.id != id);
      r
  }

  /** `map(t => t.id === updated.id ? updated : t)` */
  function ReplaceById(ts: seq<Task>, updated: Task): (r: seq<Task>)
    ensures |r| == |ts|
    ensures forall i :: 0 <= i < |ts| ==> r[i] == if ts[i].id == updated.id then updated else ts[i]
  {
    if |ts| == 0 then [] else [if ts[0].id == updated.id then updated else ts[0]] + ReplaceById(ts[1..], updated)
  }

  /** `find(t => t.id === id)`: the first task with that id. */
  function Find(ts: seq<Task>, id: string): (r: Option<Task>)
    ensures r.Some? ==> r.value in ts && r.value.id == id
    ensures r.Some? ==> exists i :: 0 <= i < |ts| && ts[i] == r.value && forall j :: 0 <= j < i ==> ts[j].id != id
    ensures r.None? ==> forall t :: t in ts ==> t.id != id
  {
    if |ts| == 0 then None
    else if ts[0].id == id then Some(ts[0])
    else
      var r := Find(ts[1..], id);
      if r.Some? then
        var i :| 0 <= i < |ts[1..]| && ts[1..][i] == r.value && forall j :: 0 <= j < i ==> ts[1..][j].id != id;
        assert ts[i + 1] == r.value && forall j :: 0 <= j < i + 1 ==> ts[j].id != id;
        r
      else r
  }

  // ---------------------------------------------------------------------------
  // Mapping over the columns

  /** What a transition does to the tasks of one column. */
  datatype ColumnUpdate =
    | Fill(saved: seq<Task>)                              // load
    | Replace(updated: Task)                              // edit
    | AppendTo(status: Status, task: Task)                // add
    | RemoveAll(id: string)                               // confirmed delete
    | MoveTo(id: string, moved: Task, target: Status)     // drag to another column

  function UpdatedTasks(u: ColumnUpdate, col: Column): seq<Task>
  {
    match u
    case Fill(saved) => WithStatus(saved, col.status)
    case Replace(updated) => ReplaceById(col.tasks, updated)
    case AppendTo(status, task) => if col.status == status then col.tasks + [task] else col.tasks
    case RemoveAll(id) => RemoveId(col.tasks, id)
    case MoveTo(id, moved, target) =>
      if col.status == target then RemoveId(col.tasks, id) + [moved] else RemoveId(col.tasks, id)
  }

  /** `prev.map(col => ({...col, tasks: ...}))`: never adds, drops or reorders a column. */
  function MapColumns(cols: seq<Column>, u: ColumnUpdate): (r: seq<Column>)
    ensures SameLayout(r, cols)
    ensures forall i :: 0 <= i < |cols| ==> r[i].tasks == UpdatedTasks(u, cols[i])
  {
    if |cols| == 0 then [] else [cols[0].(tasks := UpdatedTasks(u, cols[0]))] + MapColumns(cols[1..], u)
  }

  // ---------------------------------------------------------------------------
  // Transitions

  /** The mount effect: with saved tasks, each column keeps exactly the saved tasks of its status. */
  function Load(b: BoardState, saved: Option<seq<Task>>): (r: BoardState)
    ensures saved.None? ==> r == b
    ensures SameLayout(r.columns, b.columns)
    ensures saved.Some? ==> StatusesMatch(r.columns)
    ensures saved.Some? ==> forall i :: 0 <= i < |r.columns| ==>
              forall t :: t in r.columns[i].tasks <==> t in saved.value && t.status == b.columns[i].status
    ensures saved.Some? ==> forall i :: 0 <= i < |r.columns| ==>
              r.columns[i].tasks == WithStatus(saved.value, b.columns[i].status)
  {
    match saved
    case None => b
    case Some(tasks) => b.(columns := MapColumns(b.columns, Fill(tasks)))
  }

  /** `handleAddTask`: open an empty form for a new task in column `status`. */
  function HandleAddTask(b: BoardState, status: Status): (r: BoardState)
    ensures r.columns == b.columns && r.modalOpen && r.editing.None? && r.currentStatus == status
  {
    b.(currentStatus := status, editing := None, modalOpen := true)
  }

  /** `handleEditTask`: open the form on `task`, aimed at its own status. */
  function HandleEditTask(b: BoardState, task: Task): (r: BoardState)
    ensures r.columns == b.columns && r.modalOpen && r.editing == Some(task) && r.currentStatus == task.status
  {
    b.(editing := Some(task), currentStatus := task.status, modalOpen := true)
  }

  /** `{...original, ...taskData}` for the four keys the form provides. */
  function Patch(original: Task, d: Draft): (t: Task)
    ensures t.id == original.id && t.createdAt == original.createdAt
    ensures t.dueDate == original.dueDate && t.hasNotification == original.hasNotification
    ensures t.tags == original.tags
    ensures t.title == d.title && t.description == Some(d.description)
    ensures t.status == d.status && t.priority == d.priority
  {
    original.(title := d.title, description := Some(d.description), status := d.status, priority := d.priority)
  }

  /**
   * The task `handleSaveTask` creates. The source reads the clock twice:
   * `Date.now()` for the id, rendered in decimal, and `new Date()` for the
   * creation time; `idNow` and `createdNow` are those two readings.
   */
  function NewTask(d: Draft, idNow: int, createdNow: int): (t: Task)
    ensures ParseInt(t.id) == Some(idNow) && t.createdAt == createdNow
    ensures t.title == d.title && t.description == Some(d.description)
    ensures t.status == d.status && t.priority == d.priority
    ensures t.dueDate.None? && t.hasNotification.None? && t.tags.None?
  {
    IntToDecimalRoundTrip(idNow);
    Task(IntToDecimal(idNow), d.title, Some(d.description), d.status, d.priority, createdNow, None, None, None)
  }

  /** Only when both clock readings agree does a new task's id read back as its creation time. */
  lemma NewTaskIdIsCreationTime(d: Draft, idNow: int, createdNow: int)
    ensures ParseInt(NewTask(d, idNow, createdNow).id) == Some(NewTask(d, idNow, createdNow).createdAt)
            <==> idNow == createdNow
  {
  }

  /**
   * `handleSaveTask`: when editing, every task with the edited id is replaced
   * in place by the patched task; otherwise a new task is appended to the
   * column of `currentStatus`.
   */
  function SaveTask(b: BoardState, d: Draft, idNow: int, createdNow: int): (r: BoardState)
    ensures SameLayout(r.columns, b.columns)
    ensures b.editing.Some? ==> forall i :: 0 <= i < |b.columns| ==>
              |r.columns[i].tasks| == |b.columns[i].tasks|
              && forall j :: 0 <= j < |b.columns[i].tasks| ==>
                   r.columns[i].tasks[j] == if b.columns[i].tasks[j].id == b.editing.value.id
                                            then Patch(b.editing.value, d) else b.columns[i].tasks[j]
    ensures b.editing.None? ==> forall i :: 0 <= i < |b.columns| ==>
              r.columns[i].tasks == if b.columns[i].status == b.currentStatus
                                    then b.columns[i].tasks + [NewTask(d, idNow, createdNow)] else b.columns[i].tasks
    ensures r.(columns := b.columns) == b
  {
    match b.editing
    case Some(original) => b.(columns := MapColumns(b.columns, Replace(Patch(original, d))))
    case None => b.(columns := MapColumns(b.columns, AppendTo(b.currentStatus, NewTask(d, idNow, createdNow))))
  }

  /** The form's `onClose`. */
  function CloseModal(b: BoardState): (r: BoardState)
    ensures !r.modalOpen && r.(modalOpen := b.modalOpen) == b
  {
    b.(modalOpen := false)
  }

  /** `handleDeleteTask`: only records which task awaits confirmation. */
  function HandleDeleteTask(b: BoardState, id: string): (r: BoardState)
    ensures r.deleteConfirm == Some(id) && r.(deleteConfirm := b.deleteConfirm) == b
  {
    b.(deleteConfirm := Some(id))
  }

  /**
   * `confirmDelete`: with a pending id, drops every task with that id from
   * every column and clears the marker. The source tests the id for
   * truthiness, so a pending empty id does nothing.
   */
  function ConfirmDelete(b: BoardState): (r: BoardState)
    ensures b.deleteConfirm.None? || b.deleteConfirm.value == "" ==> r == b
    ensures b.deleteConfirm.Some? && b.deleteConfirm.value != "" ==>
      && r.deleteConfirm.None?
      && SameLayout(r.columns, b.columns)
      && (forall i :: 0 <= i < |b.columns| ==>
            forall t :: t in r.columns[i].tasks <==> t in b.columns[i].tasks && t.id != b.deleteConfirm.value)
      && (forall i :: 0 <= i < |b.columns| ==> r.columns[i].tasks == RemoveId(b.columns[i].tasks, b.deleteConfirm.value))
      && r.(columns := b.columns, deleteConfirm := b.deleteConfirm) == b
  {
    if b.deleteConfirm.Some? && b.deleteConfirm.value != "" then
      b.(columns := MapColumns(b.columns, RemoveAll(b.deleteConfirm.value)), deleteConfirm := None)
    else b
  }

  /** `cancelDelete` */
  function CancelDelete(b: BoardState): (r: BoardState)
    ensures r.deleteConfirm.None? && r.(deleteConfirm := b.deleteConfirm) == b
  {
    b.(deleteConfirm := None)
  }

  /** `handleDragStart`: remembers the dragged task, if it is on the board. */
  function HandleDragStart(b: BoardState, activeId: string): (r: BoardState)
    ensures r.columns == b.columns
    ensures r.activeTask.Some? ==> r.activeTask.value in AllTasks(b.columns) && r.activeTask.value.id == activeId
    ensures r.activeTask.None? ==> forall t :: t in AllTasks(b.columns) ==> t.id != activeId
    ensures r.activeTask.Some? ==>
      var all := AllTasks(b.columns);
      exists i :: 0 <= i < |all| && all[i] == r.activeTask.value && forall j :: 0 <= j < i ==> all[j].id != activeId
  {
    b.(activeTask := Find(AllTasks(b.columns), activeId))
  }

  /**
   * `handleDragEnd`: dropping task `activeId` on the column of status `over`.
   * A drop outside every column, an unknown id or the task's own status leave
   * the columns alone; otherwise the task leaves every column and is appended,
   * with the new status, to the target column.
   */
  function HandleDragEnd(b: BoardState, activeId: string, over: Option<Status>): (r: BoardState)
    ensures r.activeTask.None?
    ensures SameLayout(r.columns, b.columns)
    ensures over.None? ==> r.columns == b.columns
    ensures over.Some? && Find(AllTasks(b.columns), activeId).None? ==> r.columns == b.columns
    ensures (over.Some? && Find(AllTasks(b.columns), activeId).Some?
             && Find(AllTasks(b.columns), activeId).value.status == over.value) ==> r.columns == b.columns
    ensures (over.Some? && Find(AllTasks(b.columns), activeId).Some?
             && Find(AllTasks(b.columns), activeId).value.status != over.value) ==>
      var moved := Find(AllTasks(b.columns), activeId).value.(status := over.value);
      forall i :: 0 <= i < |b.columns| ==>
        r.columns[i].tasks == RemoveId(b.columns[i].tasks, activeId)
                              + (if b.columns[i].status == over.value then [moved] else [])
    ensures r.(columns := b.columns, activeTask := b.activeTask) == b
  {
    var cleared := b.(activeTask := None);
    if over.None? then cleared
    else
      var newStatus := over.value;
      var task := Find(AllTasks(b.columns), activeId);
      if task.Some? && task.value.status != newStatus then
        var updatedTask := task.value.(status := newStatus);
        MovedTasks(b.columns, activeId, updatedTask, newStatus);
        cleared.(columns := MapColumns(b.columns, MoveTo(activeId, updatedTask, newStatus)))
      else cleared
  }

  /** After a move, each column holds its tasks without the id, then the moved task if it is the target. */
  lemma MovedTasks(cols: seq<Column>, id: string, moved: Task, target: Status)
    ensures forall i :: 0 <= i < |cols| ==>
      MapColumns(cols, MoveTo(id, moved, target))[i].tasks
        == RemoveId(cols[i].tasks, id) + (if cols[i].status == target then [moved] else [])
  {
    forall i | 0 <= i < |cols|
      ensures MapColumns(cols, MoveTo(id, moved, target))[i].tasks
              == RemoveId(cols[i].tasks, id) + (if cols[i].status == target then [moved] else [])
    {
      MovedColumn(cols[i], id, moved, target);
    }
  }

  lemma MovedColumn(col: Column, id: string, moved: Task, target: Status)
    ensures UpdatedTasks(MoveTo(id, moved, target), col)
            == RemoveId(col.tasks, id) + (if col.status == target then [moved] else [])
  {
    var kept := RemoveId(col.tasks, id);
    assert kept + [] == kept;
  }

  // ---------------------------------------------------------------------------
  // Properties across transitions

  /** Every saved task lands in exactly one column of a well-formed board. */
  lemma LoadPartitions(b: BoardState, saved: seq<Task>)
    requires WellFormed(b.columns)
    ensures multiset(AllTasks(Load(b, Some(saved)).columns)) == multiset(saved)
  {
    var cols := Load(b, Some(saved)).columns;
    AllTasksOfThree(cols);
    WithStatusPartition(saved);
  }

  lemma AllTasksOfThree(cols: seq<Column>)
    requires |cols| == 3
    ensures AllTasks(cols) == cols[0].tasks + cols[1].tasks + cols[2].tasks
  {
    assert cols[1..][1..][1..] == [];
    assert AllTasks(cols[1..][1..]) == cols[2].tasks + [];
  }

  /** A well-formed board has exactly one column of each status. */
  lemma OneColumnPerStatus(cols: seq<Column>, status: Status)
    requires WellFormed(cols)
    ensures ColumnsWithStatus(cols, status) == 1
  {
    assert cols[0].status == Todo && cols[1].status == InProgress && cols[2].status == Done;
    assert cols[1..][1..][1..] == [];
    assert ColumnsWithStatus(cols[1..][1..][1..], status) == 0;
    assert ColumnsWithStatus(cols[1..][1..], status) == if cols[2].status == status then 1 else 0;
    assert ColumnsWithStatus(cols[1..], status)
        == (if cols[1].status == status then 1 else 0) + ColumnsWithStatus(cols[1..][1..], status);
  }

  /** Filtering by each of the three statuses splits a task list without loss or duplication. */
  lemma {:induction false} WithStatusPartition(ts: seq<Task>)
    ensures ByStatus(ts) == multiset(ts)
  {
    if |ts| > 0 {
      WithStatusPartition(ts[1..]);
      ByStatusFirst(ts);
      MultisetFirst(ts);
    }
  }

  lemma MultisetFirst(ts: seq<Task>)
    requires |ts| > 0
    ensures multiset(ts) == multiset{ts[0]} + multiset(ts[1..])
  {
    assert ts == [ts[0]] + ts[1..];
  }

  /** The three status filters of `ts`, taken together. */
  function ByStatus(ts: seq<Task>): multiset<Task>
  {
    multiset(WithStatus(ts, Todo)) + multiset(WithStatus(ts, InProgress)) + multiset(WithStatus(ts, Done))
  }

  lemma ByStatusFirst(ts: seq<Task>)
    requires |ts| > 0
    ensures ByStatus(ts) == multiset{ts[0]} + ByStatus(ts[1..])
  {
    WithStatusFirst(ts, Todo);
    WithStatusFirst(ts, InProgress);
    WithStatusFirst(ts, Done);
  }

  lemma WithStatusFirst(ts: seq<Task>, status: Status)
    requires |ts| > 0
    ensures multiset(WithStatus(ts, status))
            == (if ts[0].status == status then multiset{ts[0]} else multiset{}) + multiset(WithStatus(ts[1..], status))
  {
  }

  /** Adding keeps every task in the column of its status exactly when the draft's status is the modal's. */
  lemma AddKeepsStatuses(b: BoardState, d: Draft, idNow: int, createdNow: int)
    requires WellFormed(b.columns) && StatusesMatch(b.columns) && b.editing.None?
    ensures StatusesMatch(SaveTask(b, d, idNow, createdNow).columns) <==> d.status == b.currentStatus
  {
    var r := SaveTask(b, d, idNow, createdNow);
    var i :| 0 <= i < 3 && b.columns[i].status == b.currentStatus by {
      match b.currentStatus
      case Todo => assert b.columns[0].status == Todo;
      case InProgress => assert b.columns[1].status == InProgress;
      case Done => assert b.columns[2].status == Done;
    }
    assert NewTask(d, idNow, createdNow) in r.columns[i].tasks;
  }

  /** Editing keeps every task in the column of its status when the draft keeps every copy's column. */
  lemma EditKeepsStatuses(b: BoardState, d: Draft, idNow: int, createdNow: int)
    requires StatusesMatch(b.columns) && b.editing.Some?
    requires forall i :: 0 <= i < |b.columns| ==>
               forall t :: t in b.columns[i].tasks && t.id == b.editing.value.id ==> d.status == b.columns[i].status
    ensures StatusesMatch(SaveTask(b, d, idNow, createdNow).columns)
  {
    var r := SaveTask(b, d, idNow, createdNow);
    forall i, t | 0 <= i < |r.columns| && t in r.columns[i].tasks
      ensures t.status == r.columns[i].status
    {
      var j :| 0 <= j < |r.columns[i].tasks| && r.columns[i].tasks[j] == t;
      assert b.columns[i].tasks[j] in b.columns[i].tasks;
    }
  }

  /**
   * As wired: the form is opened on a task of the board, whose ids are unique,
   * and saves with the status it was opened with.
   */
  lemma EditAsWiredKeepsStatuses(b: BoardState, i: int, j: int, d: Draft, idNow: int, createdNow: int)
    requires StatusesMatch(b.columns) && UniqueIds(AllTasks(b.columns))
    requires 0 <= i < |b.columns| && 0 <= j < |b.columns[i].tasks|
    requires d.status == HandleEditTask(b, b.columns[i].tasks[j]).currentStatus
    ensures StatusesMatch(SaveTask(HandleEditTask(b, b.columns[i].tasks[j]), d, idNow, createdNow).columns)
  {
    var t := b.columns[i].tasks[j];
    var e := HandleEditTask(b, t);
    forall i', t' | 0 <= i' < |b.columns| && t' in b.columns[i'].tasks && t'.id == t.id
      ensures d.status == b.columns[i'].status
    {
      var j' :| 0 <= j' < |b.columns[i'].tasks| && b.columns[i'].tasks[j'] == t';
      SameIdSamePlace(b.columns, i, j, i', j');
      assert b.columns[i] == b.columns[i'];
    }
    EditKeepsStatuses(e, d, idNow, createdNow);
  }

  /** With unique ids, two positions holding the same id are the same position. */
  lemma {:induction false} SameIdSamePlace(cols: seq<Column>, i: int, j: int, i': int, j': int)
    requires UniqueIds(AllTasks(cols))
    requires 0 <= i < |cols| && 0 <= j < |cols[i].tasks|
    requires 0 <= i' < |cols| && 0 <= j' < |cols[i'].tasks|
    requires cols[i].tasks[j].id == cols[i'].tasks[j'].id
    ensures i == i' && j == j'
    decreases |cols|
  {
    var all := AllTasks(cols);
    var n := |cols[0].tasks|;
    assert all == cols[0].tasks + AllTasks(cols[1..]);
    if i == 0 && i' == 0 {
      assert all[j] == cols[0].tasks[j] && all[j'] == cols[0].tasks[j'];
    } else if i == 0 {
      var k := PositionInAll(cols[1..], i' - 1, j');
      DistinctIdsAt(all, j, n + k);
    } else if i' == 0 {
      var k := PositionInAll(cols[1..], i - 1, j);
      DistinctIdsAt(all, j', n + k);
    } else {
      assert UniqueIds(AllTasks(cols[1..])) by {
        forall a, c | 0 <= a < c < |AllTasks(cols[1..])|
          ensures AllTasks(cols[1..])[a].id != AllTasks(cols[1..])[c].id
        {
          assert all[n + a] == AllTasks(cols[1..])[a] && all[n + c] == AllTasks(cols[1..])[c];
        }
      }
      SameIdSamePlace(cols[1..], i - 1, j, i' - 1, j');
    }
  }

  lemma DistinctIdsAt(ts: seq<Task>, a: int, c: int)
    requires UniqueIds(ts) && 0 <= a < c < |ts|
    ensures ts[a].id != ts[c].id
  {
  }

  /** The task at column `i`, position `j` appears in the flattened board. */
  lemma {:induction false} PositionInAll(cols: seq<Column>, i: int, j: int) returns (k: int)
    requires 0 <= i < |cols| && 0 <= j < |cols[i].tasks|
    ensures 0 <= k < |AllTasks(cols)| && AllTasks(cols)[k] == cols[i].tasks[j]
    decreases |cols|
  {
    assert AllTasks(cols) == cols[0].tasks + AllTasks(cols[1..]);
    if i == 0 {
      k := j;
    } else {
      var k' := PositionInAll(cols[1..], i - 1, j);
      k := |cols[0].tasks| + k';
    }
  }

  /** A confirmed delete keeps every remaining task in the column of its status. */
  lemma ConfirmDeleteKeepsStatuses(b: BoardState)
    requires StatusesMatch(b.columns)
    ensures StatusesMatch(ConfirmDelete(b).columns)
  {
  }

  /** The delete flow: request, then confirm or cancel. */
  lemma DeleteIsTwoStep(b: BoardState, id: string)
    requires id != ""
    ensures HandleDeleteTask(b, id).columns == b.columns
    ensures CancelDelete(HandleDeleteTask(b, id)).columns == b.columns
    ensures CancelDelete(HandleDeleteTask(b, id)).deleteConfirm.None?
    ensures forall i :: 0 <= i < |b.columns| ==> forall t ::
              t in ConfirmDelete(HandleDeleteTask(b, id)).columns[i].tasks <==> t in b.columns[i].tasks && t.id != id
    ensures forall i :: 0 <= i < |b.columns| ==>
              ConfirmDelete(HandleDeleteTask(b, id)).columns[i].tasks == RemoveId(b.columns[i].tasks, id)
    ensures ConfirmDelete(CancelDelete(HandleDeleteTask(b, id))) == CancelDelete(HandleDeleteTask(b, id))
  {
  }

  /** A drag keeps every task in the column of its status. */
  lemma DragKeepsStatuses(b: BoardState, activeId: string, over: Option<Status>)
    requires StatusesMatch(b.columns)
    ensures StatusesMatch(HandleDragEnd(b, activeId, over).columns)
  {
    var r := HandleDragEnd(b, activeId, over);
    var found := Find(AllTasks(b.columns), activeId);
    if over.Some? && found.Some? && found.value.status != over.value {
      var moved := found.value.(status := over.value);
      forall i | 0 <= i < |r.columns|
        ensures forall t :: t in r.columns[i].tasks ==> t.status == r.columns[i].status
      {
        assert r.columns[i].status == b.columns[i].status;
        assert r.columns[i].tasks == RemoveId(b.columns[i].tasks, activeId)
                                     + (if b.columns[i].status == over.value then [moved] else []);
        MovedColumnKeepsStatuses(b.columns[i], activeId, moved, over.value);
      }
    }
  }

  /** A column that keeps its statuses keeps them after losing a task and gaining one of its own status. */
  lemma MovedColumnKeepsStatuses(col: Column, id: string, moved: Task, target: Status)
    requires forall t :: t in col.tasks ==> t.status == col.status
    requires moved.status == target
    ensures forall t :: t in RemoveId(col.tasks, id) + (if col.status == target then [moved] else []) ==>
              t.status == col.status
  {
  }

  lemma {:induction false} CountIdAppend(a: seq<Task>, c: seq<Task>, id: string)
    ensures CountId(a + c, id) == CountId(a, id) + CountId(c, id)
    decreases |a|
  {
    if |a| > 0 {
      assert (a + c)[1..] == a[1..] + c;
      CountIdAppend(a[1..], c, id);
    } else {
      assert a + c == c;
    }
  }

  /** Unique ids: an id occurs at most once; a found id occurs exactly once. */
  lemma {:induction false} CountIdUnique(ts: seq<Task>, id: string)
    requires UniqueIds(ts)
    ensures CountId(ts, id) <= 1
    ensures Find(ts, id).Some? ==> CountId(ts, id) == 1
    decreases |ts|
  {
    if |ts| > 0 {
      assert UniqueIds(ts[1..]) by {
        forall a, c | 0 <= a < c < |ts[1..]|
          ensures ts[1..][a].id != ts[1..][c].id
        {
          assert ts[1..][a] == ts[a + 1] && ts[1..][c] == ts[c + 1];
        }
      }
      CountIdUnique(ts[1..], id);
      if ts[0].id == id {
        assert forall t :: t in ts[1..] ==> t.id != id by {
          forall t | t in ts[1..]
            ensures t.id != id
          {
            var k :| 0 <= k < |ts[1..]| && ts[1..][k] == t;
            assert ts[k + 1] == t;
          }
        }
        CountIdAbsent(ts[1..], id);
      }
    }
  }

  lemma {:induction false} CountIdAbsent(ts: seq<Task>, id: string)
    requires forall t :: t in ts ==> t.id != id
    ensures CountId(ts, id) == 0
    decreases |ts|
  {
    if |ts| > 0 {
      assert ts[0] in ts;
      assert forall t :: t in ts[1..] ==> t in ts;
      CountIdAbsent(ts[1..], id);
    }
  }

  /** Number of columns with the given status. */
  function ColumnsWithStatus(cols: seq<Column>, status: Status): nat
  {
    if |cols| == 0 then 0 else (if cols[0].status == status then 1 else 0) + ColumnsWithStatus(cols[1..], status)
  }

  /** Task count after a move: every copy of the id leaves, one copy enters each target column. */
  lemma {:induction false} MoveCount(cols: seq<Column>, id: string, moved: Task, target: Status)
    ensures |AllTasks(MapColumns(cols, MoveTo(id, moved, target)))| + CountId(AllTasks(cols), id)
            == |AllTasks(cols)| + ColumnsWithStatus(cols, target)
    decreases |cols|
  {
    if |cols| > 0 {
      var r := MapColumns(cols, MoveTo(id, moved, target));
      assert r[1..] == MapColumns(cols[1..], MoveTo(id, moved, target));
      MoveCount(cols[1..], id, moved, target);
      CountIdAppend(cols[0].tasks, AllTasks(cols[1..]), id);
      assert |RemoveId(cols[0].tasks, id)| + CountId(cols[0].tasks, id) == |cols[0].tasks|;
    }
  }

  /** On a well-formed board with unique ids, a drag to another column keeps the number of tasks. */
  lemma DragKeepsCount(b: BoardState, activeId: string, over: Option<Status>)
    requires WellFormed(b.columns) && UniqueIds(AllTasks(b.columns))
    ensures |AllTasks(HandleDragEnd(b, activeId, over).columns)| == |AllTasks(b.columns)|
  {
    var r := HandleDragEnd(b, activeId, over);
    var task := Find(AllTasks(b.columns), activeId);
    if over.Some? && task.Some? && task.value.status != over.value {
      var moved := task.value.(status := over.value);
      assert r.columns == MapColumns(b.columns, MoveTo(activeId, moved, over.value));
      MoveCount(b.columns, activeId, moved, over.value);
      CountIdUnique(AllTasks(b.columns), activeId);
      OneColumnPerStatus(b.columns, over.value);
    }
  }
}

=== FILE: notification.dfy ===
/**
 * The reminder scheduler (client/src/services/notification.ts): a set of task
 * ids already notified and a table of armed timers keyed by task id. A browser
 * timer is an entry holding the instant it was armed, its delay and whether it
 * is still pending; `Fire` is the explicit step of the host calling it back.
 * Delivery (the Notification API, or `alert`) is an abstract `Notice` event.
 */
module Notification {
  import opened Wrappers
  import opened Types
  import opened Sequences

  const MsPerMinute: int := 60000
  /** A reminder is due this many minutes before the deadline. */
  const LeadMinutes: int := 15

  /** `differenceInMinutes(later, earlier)`: whole minutes between, truncated toward zero. */
  function MinutesBetween(later: int, earlier: int): (m: int)
    ensures later >= earlier ==> m >= 0 && m * MsPerMinute <= later - earlier < (m + 1) * MsPerMinute
    ensures later < earlier ==> m <= 0 && (m - 1) * MsPerMinute < later - earlier <= m * MsPerMinute
  {
    var d := later - earlier;
    if d >= 0 then d / MsPerMinute else -((-d) / MsPerMinute)
  }

  /** `isPast(date)`: strictly before now; a past date is never a whole minute ahead. */
  function IsPast(date: int, now: int): (past: bool)
    ensures past <==> date < now
    ensures past ==> MinutesBetween(date, now) <= 0
  {
    date < now
  }

  datatype Notice = Notice(id: string, title: string)

  datatype Timer = Timer(armedAt: int, delay: int, title: string, pending: bool) {
    function FireAt(): int {
      armedAt + delay
    }
  }

  datatype Scheduler = Scheduler(notified: set<string>, timers: map<string, Timer>)

  /** The scheduler's state after a step, and the notices delivered during it. */
  datatype Outcome = Outcome(state: Scheduler, notices: seq<Notice>)

  const Initial: Scheduler := Scheduler({}, map[])

  // ---------------------------------------------------------------------------
  // Which tasks get what

  /**
   * The filter of `setupNotifications`: a due date, notifications on, and not
   * past. A task with a due date and notifications on that the filter drops is
   * at most zero whole minutes ahead.
   */
  function Considered(t: Task, now: int): (c: bool)
    ensures c ==> t.dueDate.Some? && t.hasNotification == Some(true) && MinutesBetween(t.dueDate.value, now) >= 0
    ensures !c && t.dueDate.Some? && t.hasNotification == Some(true) ==> MinutesBetween(t.dueDate.value, now) <= 0
  {
    t.dueDate.Some? && t.hasNotification == Some(true) && !IsPast(t.dueDate.value, now)
  }

  /** Due within 1..15 whole minutes: notified at once. */
  predicate DueSoon(t: Task, now: int) {
    Considered(t, now) && 0 < MinutesBetween(t.dueDate.value, now) <= LeadMinutes
  }

  /** Due more than 15 whole minutes ahead: a timer is armed. */
  predicate DueLater(t: Task, now: int) {
    Considered(t, now) && MinutesBetween(t.dueDate.value, now) > LeadMinutes
  }

  /** Ids of the tasks in `tasks` that are due soon. */
  function DueSoonIds(tasks: seq<Task>, now: int): (ids: set<string>)
    ensures forall i :: 0 <= i < |tasks| && DueSoon(tasks[i], now) ==> tasks[i].id in ids
  {
    if |tasks| == 0 then {}
    else
      var rest := DueSoonIds(tasks[1..], now);
      assert forall i :: 1 <= i < |tasks| ==> tasks[i] == tasks[1..][i - 1];
      (if DueSoon(tasks[0], now) then {tasks[0].id} else {}) + rest
  }

  /** Ids of the tasks in `tasks` that are due later. */
  function DueLaterIds(tasks: seq<Task>, now: int): (ids: set<string>)
    ensures forall i :: 0 <= i < |tasks| && DueLater(tasks[i], now) ==> tasks[i].id in ids
  {
    if |tasks| == 0 then {}
    else
      var rest := DueLaterIds(tasks[1..], now);
      assert forall i :: 1 <= i < |tasks| ==> tasks[i] == tasks[1..][i - 1];
      (if DueLater(tasks[0], now) then {tasks[0].id} else {}) + rest
  }

  /** Every timer is pending, was armed at `now`, and waits at least a minute. */
  predicate ArmedAt(timers: map<string, Timer>, now: int) {
    forall k :: k in timers ==> timers[k].pending && timers[k].armedAt == now && timers[k].delay >= MsPerMinute
  }

  predicate DistinctIds(ns: seq<Notice>) {
    forall i, j :: 0 <= i < j < |ns| ==> ns[i].id != ns[j].id
  }

  // ---------------------------------------------------------------------------
  // Operations

  /** `showNotification`: the id is marked notified whatever the delivery channel does. */
  function Show(s: Scheduler, t: Task): (o: Outcome)
    ensures o.state.notified == s.notified + {t.id}
    ensures o.state.timers == s.timers
    ensures o.notices == [Notice(t.id, t.title)]
  {
    Outcome(s.(notified := s.notified + {t.id}), [Notice(t.id, t.title)])
  }

  /** `clearAllTimeouts`: cancels every timer and forgets the table; the notified set stays. */
  function ClearAllTimeouts(s: Scheduler): (r: Scheduler)
    ensures r.timers == map[]
    ensures r.notified == s.notified
  {
    s.(timers := map[])
  }

  /** `scheduleNotification` for one task at instant `now`. */
  function Schedule(s: Scheduler, t: Task, now: int): (o: Outcome)
    ensures t.dueDate.None? || t.hasNotification != Some(true) ==> o == Outcome(s, [])
    ensures t.dueDate.Some? && MinutesBetween(t.dueDate.value, now) <= 0 ==> o == Outcome(s, [])
    ensures t.dueDate.Some? && t.hasNotification == Some(true) ==>
      var m := MinutesBetween(t.dueDate.value, now);
      && (0 < m <= LeadMinutes ==> o.state.notified == s.notified + {t.id} && o.state.timers == s.timers)
      && (0 < m <= LeadMinutes && t.id !in s.notified ==> o.notices == [Notice(t.id, t.title)])
      && (0 < m <= LeadMinutes && t.id in s.notified ==> o == Outcome(s, []))
      && (m > LeadMinutes ==>
            && o.notices == [] && o.state.notified == s.notified
            && o.state.timers.Keys == s.timers.Keys + {t.id}
            && (forall k :: k in s.timers && k != t.id ==> o.state.timers[k] == s.timers[k])
            && o.state.timers[t.id].pending && o.state.timers[t.id].armedAt == now
            && o.state.timers[t.id].delay >= MsPerMinute
            && o.state.timers[t.id].FireAt() == t.dueDate.value - LeadMinutes * MsPerMinute
            && o.state.timers[t.id].title == t.title)
  {
    if t.dueDate.None? || t.hasNotification != Some(true) then Outcome(s, [])
    else
      var due := t.dueDate.value;
      var minutes := MinutesBetween(due, now);
      if minutes <= LeadMinutes && minutes > 0 && t.id !in s.notified then Show(s, t)
      else if minutes > LeadMinutes then
        var notifyAt := due - LeadMinutes * 60 * 1000;
        var timeToNotify := notifyAt - now;
        Outcome(s.(timers := s.timers[t.id := Timer(now, timeToNotify, t.title, true)]), [])
      else Outcome(s, [])
  }

  /** One iteration of the `forEach` of `setupNotifications`: the filter, then `scheduleNotification`. */
  function Consider(s: Scheduler, t: Task, now: int): (o: Outcome)
    ensures o.state.notified == s.notified + (if DueSoon(t, now) then {t.id} else {})
    ensures o.state.timers.Keys == s.timers.Keys + (if DueLater(t, now) then {t.id} else {})
    ensures ArmedAt(s.timers, now) ==> ArmedAt(o.state.timers, now)
    ensures forall k :: k in s.timers && !(DueLater(t, now) && k == t.id) ==> o.state.timers[k] == s.timers[k]
    ensures DueLater(t, now) ==> o.state.timers[t.id].FireAt() == t.dueDate.value - LeadMinutes * MsPerMinute
                                 && o.state.timers[t.id].title == t.title
    ensures o.notices == if DueSoon(t, now) && t.id !in s.notified then [Notice(t.id, t.title)] else []
  {
    if Considered(t, now) then Schedule(s, t, now) else Outcome(s, [])
  }

  /** The filter adds nothing to `scheduleNotification`'s own guards: a task it drops would be ignored anyway. */
  lemma FilterAddsNothing(s: Scheduler, t: Task, now: int)
    ensures Consider(s, t, now) == Schedule(s, t, now)
  {
    if !Considered(t, now) {
      assert Schedule(s, t, now) == Outcome(s, []);
    }
  }

  /** The `forEach` of `setupNotifications`, applied to an already cleared table: at most one notice per task. */
  function ScheduleEach(s: Scheduler, tasks: seq<Task>, now: int): (o: Outcome)
    ensures |o.notices| <= |tasks|
    ensures s.notified <= o.state.notified
    decreases |tasks|
  {
    if |tasks| == 0 then Outcome(s, [])
    else
      var first := Consider(s, tasks[0], now);
      var rest := ScheduleEach(first.state, tasks[1..], now);
      Outcome(rest.state, first.notices + rest.notices)
  }

  /** What one pass over `tasks` does to the two parts of the state and which notices it delivers. */
  lemma {:induction false} ScheduleEachEffect(s: Scheduler, tasks: seq<Task>, now: int)
    ensures var o := ScheduleEach(s, tasks, now);
            && o.state.notified == s.notified + DueSoonIds(tasks, now)
            && o.state.timers.Keys == s.timers.Keys + DueLaterIds(tasks, now)
            && (ArmedAt(s.timers, now) ==> ArmedAt(o.state.timers, now))
    decreases |tasks|
  {
    if |tasks| > 0 {
      ScheduleEachEffect(Consider(s, tasks[0], now).state, tasks[1..], now);
    }
  }

  /** The notices of one pass: fresh, due soon, distinct, and one for every fresh id due soon. */
  lemma {:induction false} ScheduleEachNotices(s: Scheduler, tasks: seq<Task>, now: int)
    ensures var o := ScheduleEach(s, tasks, now);
            && (forall n :: n in o.notices ==> n.id !in s.notified && n.id in DueSoonIds(tasks, now))
            && (forall id :: id in DueSoonIds(tasks, now) && id !in s.notified ==> exists n :: n in o.notices && n.id == id)
            && DistinctIds(o.notices)
    decreases |tasks|
  {
    if |tasks| > 0 {
      var t := tasks[0];
      var first := Consider(s, t, now);
      var rest := ScheduleEach(first.state, tasks[1..], now);
      ScheduleEachNotices(first.state, tasks[1..], now);
      DistinctAppend(first.notices, rest.notices, first.state.notified);
      var o := ScheduleEach(s, tasks, now);
      assert o.notices == first.notices + rest.notices;
      forall id | id in DueSoonIds(tasks, now) && id !in s.notified
        ensures exists n :: n in o.notices && n.id == id
      {
        if DueSoon(t, now) && id == t.id {
          assert Notice(t.id, t.title) in o.notices;
        } else {
          assert id in DueSoonIds(tasks[1..], now) && id !in first.state.notified;
          var n :| n in rest.notices && n.id == id;
          assert n in o.notices;
        }
      }
    }
  }

  /** The reminder of every task due soon, in task order, each with that task's id and title. */
  function DueSoonNotices(tasks: seq<Task>, now: int): (ns: seq<Notice>)
    ensures |ns| <= |tasks|
    decreases |tasks|
  {
    if |tasks| == 0 then []
    else (if DueSoon(tasks[0], now) then [Notice(tasks[0].id, tasks[0].title)] else []) + DueSoonNotices(tasks[1..], now)
  }

  /**
   * `n` is the notice of the first task in `tasks` with its id that is due
   * soon: showing it marks the id, so later tasks with that id stay silent.
   */
  predicate NoticeOfFirst(n: Notice, tasks: seq<Task>, now: int) {
    exists i :: 0 <= i < |tasks| && tasks[i].id == n.id && DueSoon(tasks[i], now) && n.title == tasks[i].title
      && forall j :: 0 <= j < i && tasks[j].id == n.id ==> !DueSoon(tasks[j], now)
  }

  /** The notices of one pass come in task order, each with the title of the first due-soon task of its id. */
  lemma {:induction false} ScheduleEachNoticeOrder(s: Scheduler, tasks: seq<Task>, now: int)
    ensures var o := ScheduleEach(s, tasks, now);
            && Subsequence(o.notices, DueSoonNotices(tasks, now))
            && forall n :: n in o.notices ==> NoticeOfFirst(n, tasks, now)
    decreases |tasks|
  {
    if |tasks| > 0 {
      var first := Consider(s, tasks[0], now);
      var rest := ScheduleEach(first.state, tasks[1..], now);
      ScheduleEachNoticeOrder(first.state, tasks[1..], now);
      ScheduleEachNotices(first.state, tasks[1..], now);
      NoticeOrderStep(s, tasks, now, rest.notices);
      assert ScheduleEach(s, tasks, now).notices == first.notices + rest.notices;
    }
  }

  /** One task of `ScheduleEach` in front of the rest: order and titles of the tail's notices extend to the list. */
  lemma NoticeOrderStep(s: Scheduler, tasks: seq<Task>, now: int, rest: seq<Notice>)
    requires |tasks| > 0
    requires Subsequence(rest, DueSoonNotices(tasks[1..], now))
    requires forall n :: n in rest ==> NoticeOfFirst(n, tasks[1..], now)
    requires forall n :: n in rest ==> n.id !in Consider(s, tasks[0], now).state.notified
    ensures var ns := Consider(s, tasks[0], now).notices + rest;
            && Subsequence(ns, DueSoonNotices(tasks, now))
            && forall n :: n in ns ==> NoticeOfFirst(n, tasks, now)
  {
    var t := tasks[0];
    var first := Consider(s, t, now);
    var tail := DueSoonNotices(tasks[1..], now);
    var n0 := Notice(t.id, t.title);
    if DueSoon(t, now) {
      assert DueSoonNotices(tasks, now) == [n0] + tail;
      if t.id !in s.notified {
        assert first.notices + rest == [n0] + rest;
        SubsequenceKeep(n0, rest, tail);
      } else {
        assert first.notices + rest == rest;
        SubsequenceSkip(n0, rest, tail);
      }
    } else {
      assert DueSoonNotices(tasks, now) == tail;
      assert first.notices + rest == rest;
    }
    forall n | n in first.notices + rest
      ensures NoticeOfFirst(n, tasks, now)
    {
      if n in first.notices {
        assert n == n0 && tasks[0].id == n.id && DueSoon(tasks[0], now);
      } else {
        NoticeOfFirstShift(n, tasks, now);
      }
    }
  }

  /** The notice of the first due-soon task in the tail is one for the whole list when the head is not a due-soon copy. */
  lemma NoticeOfFirstShift(n: Notice, tasks: seq<Task>, now: int)
    requires |tasks| > 0 && NoticeOfFirst(n, tasks[1..], now)
    requires tasks[0].id == n.id ==> !DueSoon(tasks[0], now)
    ensures NoticeOfFirst(n, tasks, now)
  {
    var i :| 0 <= i < |tasks[1..]| && tasks[1..][i].id == n.id && DueSoon(tasks[1..][i], now)
      && n.title == tasks[1..][i].title
      && (forall j :: 0 <= j < i && tasks[1..][j].id == n.id ==> !DueSoon(tasks[1..][j], now));
    assert tasks[i + 1] == tasks[1..][i];
    forall j | 0 < j < i + 1 && tasks[j].id == n.id
      ensures !DueSoon(tasks[j], now)
    {
      assert tasks[j] == tasks[1..][j - 1];
    }
  }

  /**
   * `tm` is the timer of the last task in `tasks` with id `k` that is due
   * later: it fires fifteen minutes before that task's deadline with its title.
   * A later task with the same id overwrites an earlier one's entry.
   */
  predicate TimerOfLast(tm: Timer, tasks: seq<Task>, k: string, now: int) {
    exists i :: 0 <= i < |tasks| && tasks[i].id == k && DueLater(tasks[i], now)
      && (forall j :: i < j < |tasks| && tasks[j].id == k ==> !DueLater(tasks[j], now))
      && tm.FireAt() == tasks[i].dueDate.value - LeadMinutes * MsPerMinute
      && tm.title == tasks[i].title
  }

  /** Each timer after one pass belongs to the last due-later task with its id, or was there before. */
  lemma {:induction false} ScheduleEachTimers(s: Scheduler, tasks: seq<Task>, now: int)
    ensures var o := ScheduleEach(s, tasks, now);
            forall k :: k in o.state.timers ==>
              if k in DueLaterIds(tasks, now) then TimerOfLast(o.state.timers[k], tasks, k, now)
              else k in s.timers && o.state.timers[k] == s.timers[k]
    decreases |tasks|
  {
    if |tasks| > 0 {
      var first := Consider(s, tasks[0], now);
      var timers := ScheduleEach(first.state, tasks[1..], now).state.timers;
      ScheduleEachTimers(first.state, tasks[1..], now);
      assert ScheduleEach(s, tasks, now).state.timers == timers;
      forall k | k in timers
        ensures if k in DueLaterIds(tasks, now) then TimerOfLast(timers[k], tasks, k, now)
                else k in s.timers && timers[k] == s.timers[k]
      {
        TimerStep(s, tasks, now, timers, k);
      }
    }
  }

  /** One task of `ScheduleEach` in front of the rest: what holds of a final timer for the tail holds for the list. */
  lemma TimerStep(s: Scheduler, tasks: seq<Task>, now: int, timers: map<string, Timer>, k: string)
    requires |tasks| > 0 && k in timers
    requires var first := Consider(s, tasks[0], now);
             if k in DueLaterIds(tasks[1..], now) then TimerOfLast(timers[k], tasks[1..], k, now)
             else k in first.state.timers && timers[k] == first.state.timers[k]
    ensures if k in DueLaterIds(tasks, now) then TimerOfLast(timers[k], tasks, k, now)
            else k in s.timers && timers[k] == s.timers[k]
  {
    var t := tasks[0];
    if k in DueLaterIds(tasks[1..], now) {
      TimerOfLastShift(timers[k], tasks, k, now);
    } else if DueLater(t, now) && k == t.id {
      forall j | 0 < j < |tasks| && tasks[j].id == k
        ensures !DueLater(tasks[j], now)
      {
        assert tasks[j] == tasks[1..][j - 1];
      }
      assert TimerOfLast(timers[k], tasks, k, now) by {
        assert tasks[0].id == k && DueLater(tasks[0], now);
      }
    }
  }

  /** A timer of the last due-later task in the tail is one for the whole list. */
  lemma TimerOfLastShift(tm: Timer, tasks: seq<Task>, k: string, now: int)
    requires |tasks| > 0 && TimerOfLast(tm, tasks[1..], k, now)
    ensures TimerOfLast(tm, tasks, k, now)
  {
    var i :| 0 <= i < |tasks[1..]| && tasks[1..][i].id == k && DueLater(tasks[1..][i], now)
      && (forall j :: i < j < |tasks[1..]| && tasks[1..][j].id == k ==> !DueLater(tasks[1..][j], now))
      && tm.FireAt() == tasks[1..][i].dueDate.value - LeadMinutes * MsPerMinute
      && tm.title == tasks[1..][i].title;
    assert tasks[i + 1] == tasks[1..][i];
    forall j | i + 1 < j < |tasks| && tasks[j].id == k
      ensures !DueLater(tasks[j], now)
    {
      assert tasks[j] == tasks[1..][j - 1];
    }
  }

  /** Notices whose ids were all just marked, followed by notices of unmarked ids, stay distinct. */
  lemma DistinctAppend(a: seq<Notice>, b: seq<Notice>, marked: set<string>)
    requires |a| <= 1 && DistinctIds(b)
    requires forall n :: n in a ==> n.id in marked
    requires forall n :: n in b ==> n.id !in marked
    ensures DistinctIds(a + b)
  {
    var ns := a + b;
    forall i, j | 0 <= i < j < |ns|
      ensures ns[i].id != ns[j].id
    {
      assert ns[j] == b[j - |a|];
      assert ns[j] in b;
      if i < |a| {
        assert ns[i] in a;
      } else {
        assert ns[i] == b[i - |a|];
      }
    }
  }

  /** `setupNotifications(tasks)` at instant `now`. */
  function SetupNotifications(s: Scheduler, tasks: seq<Task>, now: int): (o: Outcome)
    ensures o.state.timers.Keys == DueLaterIds(tasks, now)
    ensures ArmedAt(o.state.timers, now)
    ensures forall k :: k in o.state.timers ==> TimerOfLast(o.state.timers[k], tasks, k, now)
    ensures o.state.notified == s.notified + DueSoonIds(tasks, now)
    ensures forall n :: n in o.notices ==> n.id !in s.notified && n.id in DueSoonIds(tasks, now)
    ensures forall id :: id in DueSoonIds(tasks, now) && id !in s.notified ==> exists n :: n in o.notices && n.id == id
    ensures DistinctIds(o.notices)
    ensures Subsequence(o.notices, DueSoonNotices(tasks, now))
    ensures forall n :: n in o.notices ==> NoticeOfFirst(n, tasks, now)
  {
    ScheduleEachEffect(ClearAllTimeouts(s), tasks, now);
    ScheduleEachNotices(ClearAllTimeouts(s), tasks, now);
    ScheduleEachNoticeOrder(ClearAllTimeouts(s), tasks, now);
    ScheduleEachTimers(ClearAllTimeouts(s), tasks, now);
    ScheduleEach(ClearAllTimeouts(s), tasks, now)
  }

  lemma ScheduleOne(s: Scheduler, t: Task, now: int)
    ensures SetupNotifications(s, [t], now) == Consider(ClearAllTimeouts(s), t, now)
  {
    var first := Consider(ClearAllTimeouts(s), t, now);
    assert [t][1..] == [];
    assert ScheduleEach(first.state, [], now) == Outcome(first.state, []);
    assert first.notices + [] == first.notices;
  }

  /** The host calls back the timer armed for `id`. */
  function Fire(s: Scheduler, id: string): (o: Outcome)
    ensures id !in s.timers || !s.timers[id].pending ==> o == Outcome(s, [])
    ensures id in s.timers && s.timers[id].pending ==>
      && o.state.notified == s.notified + {id}
      && o.state.timers.Keys == s.timers.Keys
      && !o.state.timers[id].pending
      && (forall k :: k in s.timers && k != id ==> o.state.timers[k] == s.timers[k])
      && o.notices == (if id in s.notified then [] else [Notice(id, s.timers[id].title)])
  {
    if id !in s.timers || !s.timers[id].pending then Outcome(s, [])
    else
      var timer := s.timers[id];
      var spent := s.(timers := s.timers[id := timer.(pending := false)]);
      if id !in s.notified then
        Outcome(spent.(notified := spent.notified + {id}), [Notice(id, timer.title)])
      else Outcome(spent, [])
  }

  /** `resetTask(id)`: forgets that `id` was notified and cancels its timer. */
  function ResetTask(s: Scheduler, id: string): (r: Scheduler)
    ensures r.notified == s.notified - {id}
    ensures r.timers.Keys == s.timers.Keys - {id}
    ensures forall k :: k in r.timers ==> r.timers[k] == s.timers[k]
  {
    Scheduler(s.notified - {id}, if id in s.timers then s.timers - {id} else s.timers)
  }

  // ---------------------------------------------------------------------------
  // Properties across calls

  /** Whole minutes ahead decide the path: at least one minute is the immediate window's floor. */
  lemma MinutesThresholds(due: int, now: int)
    ensures MinutesBetween(due, now) > 0 <==> due - now >= MsPerMinute
    ensures MinutesBetween(due, now) > LeadMinutes <==> due - now >= (LeadMinutes + 1) * MsPerMinute
  {
  }

  /** A second setup never notifies a task again that the first one found due soon. */
  lemma SetupIsIdempotent(s: Scheduler, tasks: seq<Task>, now: int, later: int)
    ensures var o1 := SetupNotifications(s, tasks, now);
            var o2 := SetupNotifications(o1.state, tasks, later);
            forall n :: n in o2.notices ==> n.id !in DueSoonIds(tasks, now)
    ensures SetupNotifications(SetupNotifications(s, tasks, now).state, tasks, now).notices == []
  {
    var o1 := SetupNotifications(s, tasks, now);
    var o2 := SetupNotifications(o1.state, tasks, now);
    NothingNewWhenNotified(ClearAllTimeouts(o1.state), tasks, now);
  }

  /** A pass over tasks whose due-soon ids are all already notified delivers nothing. */
  lemma {:induction false} NothingNewWhenNotified(s: Scheduler, tasks: seq<Task>, now: int)
    requires DueSoonIds(tasks, now) <= s.notified
    ensures ScheduleEach(s, tasks, now).notices == []
    decreases |tasks|
  {
    if |tasks| > 0 {
      var first := Consider(s, tasks[0], now);
      NothingNewWhenNotified(first.state, tasks[1..], now);
    }
  }

  /** A task due too soon, or in the past, yields neither a notice nor a timer. */
  lemma NothingForOverdue(s: Scheduler, t: Task, now: int)
    requires t.dueDate.Some? && t.dueDate.value - now < MsPerMinute
    ensures SetupNotifications(s, [t], now) == Outcome(ClearAllTimeouts(s), [])
  {
    ScheduleOne(s, t, now);
  }

  /** A task due in the window is notified exactly once, at once, with no timer. */
  lemma ImmediateNotice(s: Scheduler, t: Task, now: int)
    requires DueSoon(t, now) && t.id !in s.notified
    ensures SetupNotifications(s, [t], now) ==
            Outcome(Scheduler(s.notified + {t.id}, map[]), [Notice(t.id, t.title)])
  {
    ScheduleOne(s, t, now);
  }

  /**
   * A task due later arms one timer for 15 minutes before the deadline and
   * notifies nothing; firing it notifies exactly once, firing again does nothing.
   */
  lemma TimerFiresOnce(s: Scheduler, t: Task, now: int)
    requires DueLater(t, now) && t.id !in s.notified
    ensures var o := SetupNotifications(s, [t], now);
            && o.notices == []
            && o.state.timers.Keys == {t.id}
            && o.state.timers[t.id].FireAt() == t.dueDate.value - LeadMinutes * MsPerMinute
            && Fire(o.state, t.id).notices == [Notice(t.id, t.title)]
            && Fire(Fire(o.state, t.id).state, t.id).notices == []
  {
    ScheduleOne(s, t, now);
  }

  /** Once reset, a notified task can be notified again by a later setup. */
  lemma ResetAllowsNewNotice(s: Scheduler, t: Task, now: int)
    requires t.id in s.notified
    requires DueSoon(t, now)
    ensures SetupNotifications(s, [t], now).notices == []
    ensures SetupNotifications(ResetTask(s, t.id), [t], now).notices == [Notice(t.id, t.title)]
  {
    ScheduleOne(s, t, now);
    ScheduleOne(ResetTask(s, t.id), t, now);
  }

  /** Resetting one task leaves every other task's entries alone. */
  lemma ResetIsolated(s: Scheduler, id: string, other: string)
    requires other != id
    ensures other in ResetTask(s, id).notified <==> other in s.notified
    ensures other in ResetTask(s, id).timers <==> other in s.timers
    ensures other in s.timers ==> ResetTask(s, id).timers[other] == s.timers[other]
  {
  }

  // ---------------------------------------------------------------------------
  // Host timers and long delays

  /** The longest delay a browser timer honours: the largest signed 32-bit integer. */
  const MaxTimerDelay: int := 0x7FFF_FFFF

  /**
   * The delay the host actually waits for `setTimeout(cb, requested)`: Web IDL
   * converts the argument to a signed 32-bit `long`, wrapping modulo 2^32, and
   * the HTML timer steps treat a negative result as 0.
   */
  function HostDelay(requested: int): (d: int)
    ensures 0 <= d <= MaxTimerDelay
    ensures 0 <= requested <= MaxTimerDelay ==> d == requested
    ensures MaxTimerDelay < requested < 0x1_0000_0000 ==> d == 0
  {
    var wrapped := requested % 0x1_0000_0000;
    var signed := if wrapped > MaxTimerDelay then wrapped - 0x1_0000_0000 else wrapped;
    if signed < 0 then 0 else signed
  }

  /** As written: the instant the host runs the callback of a timer armed by `scheduleNotification`. */
  function HostCallbackTime(timer: Timer): int
  {
    timer.armedAt + HostDelay(timer.delay)
  }

  /**
   * A task due 30 days ahead: the timer asks for the reminder 15 minutes before
   * the deadline, but its delay exceeds the host's limit and the host runs the
   * callback at once, which notifies 30 days early.
   */
  lemma FarDeadlineFiresAtOnce(s: Scheduler, t: Task, now: int)
    requires t.dueDate == Some(now + 30 * 24 * 60 * MsPerMinute) && t.hasNotification == Some(true)
    requires t.id !in s.notified
    ensures var timer := SetupNotifications(s, [t], now).state.timers[t.id];
            && timer.FireAt() == now + (30 * 24 * 60 - LeadMinutes) * MsPerMinute
            && HostCallbackTime(timer) == now
            && Fire(SetupNotifications(s, [t], now).state, t.id).notices == [Notice(t.id, t.title)]
  {
    assert MinutesBetween(t.dueDate.value, now) == 30 * 24 * 60;
    assert DueLater(t, now);
    ScheduleOne(s, t, now);
  }

  /** Corrected arming: never ask the host for more than it honours. */
  function ArmDelay(delay: int): (d: int)
    ensures d <= delay && d <= MaxTimerDelay
    ensures delay <= MaxTimerDelay ==> d == delay
    ensures delay >= 0 ==> HostDelay(d) == d
  {
    if delay > MaxTimerDelay then MaxTimerDelay else delay
  }

  /**
   * Corrected callback, run by the host at instant `now`: while the reminder
   * instant is still ahead it re-arms for the remaining time; otherwise it does
   * what the source's callback does.
   */
  function Wake(s: Scheduler, id: string, now: int): (o: Outcome)
    ensures id in s.timers && s.timers[id].pending && now < s.timers[id].FireAt() ==>
      && o.notices == [] && o.state.notified == s.notified
      && o.state.timers.Keys == s.timers.Keys
      && o.state.timers[id].pending && o.state.timers[id].FireAt() == s.timers[id].FireAt()
      && o.state.timers[id].armedAt == now && o.state.timers[id].delay > 0
    ensures id in s.timers && now >= s.timers[id].FireAt() ==> o == Fire(s, id)
    ensures o.notices != [] ==> id in s.timers && now >= s.timers[id].FireAt()
  {
    if id in s.timers && s.timers[id].pending && now < s.timers[id].FireAt() then
      var timer := s.timers[id];
      var rearmed := timer.(armedAt := now, delay := timer.FireAt() - now);
      Outcome(s.(timers := s.timers[id := rearmed]), [])
    else Fire(s, id)
  }

  /**
   * With corrected arming the host's callback never comes after the reminder
   * instant, comes exactly then when the delay is within the limit, and a
   * wake-up notifies only once that instant is reached.
   */
  lemma CorrectedTimerOnTime(s: Scheduler, id: string)
    requires id in s.timers && s.timers[id].delay >= 0
    ensures var timer := s.timers[id];
            var callback := timer.armedAt + HostDelay(ArmDelay(timer.delay));
            && callback <= timer.FireAt()
            && (timer.delay <= MaxTimerDelay ==> callback == timer.FireAt())
            && (Wake(s, id, callback).notices != [] ==> callback == timer.FireAt())
  {
  }

  /** The far-deadline task of the finding, with corrected timers: no notice until the reminder instant. */
  lemma FarDeadlineCorrected(s: Scheduler, t: Task, now: int)
    requires t.dueDate == Some(now + 30 * 24 * 60 * MsPerMinute) && t.hasNotification == Some(true)
    requires t.id !in s.notified
    ensures var o := SetupNotifications(s, [t], now);
            var timer := o.state.timers[t.id];
            var callback := now + HostDelay(ArmDelay(timer.delay));
            && callback == now + MaxTimerDelay
            && Wake(o.state, t.id, callback).notices == []
            && Wake(o.state, t.id, timer.FireAt()).notices == [Notice(t.id, t.title)]
  {
    assert MinutesBetween(t.dueDate.value, now) == 30 * 24 * 60;
    assert DueLater(t, now);
    ScheduleOne(s, t, now);
  }
}

=== FILE: sequences.dfy ===
/** Order between sequences, shared by the filters of the client. */
module Sequences {

  /** `a` is `b` with some elements deleted: every element of `a` occurs in `b`, in the same order. */
  predicate Subsequence<T(==)>(a: seq<T>, b: seq<T>)
    decreases |b|
  {
    || |a| == 0
    || (|b| > 0 && ((a[0] == b[0] && Subsequence(a[1..], b[1..])) || Subsequence(a, b[1..])))
  }

  /** Keeping the head of `b` extends a subsequence of its tail. */
  lemma SubsequenceKeep<T>(x: T, a: seq<T>, b: seq<T>)
    requires Subsequence(a, b)
    ensures Subsequence([x] + a, [x] + b)
  {
    assert ([x] + a)[1..] == a && ([x] + b)[1..] == b;
  }

  /** Deleting the head of `b` keeps a subsequence of its tail. */
  lemma SubsequenceSkip<T>(x: T, a: seq<T>, b: seq<T>)
    requires Subsequence(a, b)
    ensures Subsequence(a, [x] + b)
  {
    assert ([x] + b)[1..] == b;
  }

  /**
   * One step of `filter(keep)`: from the filter of the tail, keeping or
   * dropping the head gives the filter of the whole sequence, in order and
   * with every kept element as often as it occurs.
   */
  lemma FilterStep<T>(ts: seq<T>, rest: seq<T>, keep: T -> bool)
    requires |ts| > 0 && Subsequence(rest, ts[1..])
    requires forall x :: multiset(rest)[x] == if keep(x) then multiset(ts[1..])[x] else 0
    ensures var r := if keep(ts[0]) then [ts[0]] + rest else rest;
            && Subsequence(r, ts)
            && forall x :: multiset(r)[x] == if keep(x) then multiset(ts)[x] else 0
  {
    assert ts == [ts[0]] + ts[1..];
    if keep(ts[0]) {
      SubsequenceKeep(ts[0], rest, ts[1..]);
    } else {
      SubsequenceSkip(ts[0], rest, ts[1..]);
    }
  }

  /** What a filter keeps, counted with multiplicity, is exactly what it keeps as a set of members. */
  lemma FilterMembers<T>(ts: seq<T>, r: seq<T>, keep: T -> bool)
    requires forall x :: multiset(r)[x] == if keep(x) then multiset(ts)[x] else 0
    ensures forall x :: x in r <==> x in ts && keep(x)
  {
    forall x
      ensures x in r <==> x in ts && keep(x)
    {
      assert x in r <==> multiset(r)[x] > 0;
      assert x in ts <==> multiset(ts)[x] > 0;
    }
  }
}

=== FILE: strings.dfy ===
/**
 * The string operations the client relies on, with ECMAScript's meaning:
 * `String.prototype.trim`, `String.prototype.split` with a string separator,
 * `Array.prototype.join`, and the decimal rendering `Number.prototype.toString`
 * produces for an integer.
 */
module Strings {
  import opened Wrappers

  /** The WhiteSpace and LineTerminator code points that `trim` removes. */
  predicate IsWhitespace(c: char) {
    var n := c as int;
    || n == 0x09 || n == 0x0A || n == 0x0B || n == 0x0C || n == 0x0D
    || n == 0x20 || n == 0xA0 || n == 0x1680 || (0x2000 <= n <= 0x200A)
    || n == 0x2028 || n == 0x2029 || n == 0x202F || n == 0x205F
    || n == 0x3000 || n == 0xFEFF
  }

  /** Neither end of `s` is whitespace. */
  predicate IsTrimmed(s: string) {
    s == [] || (!IsWhitespace(s[0]) && !IsWhitespace(s[|s| - 1]))
  }

  predicate AllWhitespace(s: string) {
    forall i :: 0 <= i < |s| ==> IsWhitespace(s[i])
  }

  /** The first index at or after `i` whose character is not whitespace, or `|s|`. */
  function SkipForward(s: string, i: nat): (j: nat)
    requires i <= |s|
    ensures i <= j <= |s|
    ensures forall k :: i <= k < j ==> IsWhitespace(s[k])
    ensures j < |s| ==> !IsWhitespace(s[j])
    decreases |s| - i
  {
    if i < |s| && IsWhitespace(s[i]) then SkipForward(s, i + 1) else i
  }

  /** The index just after the last character of `s[lo..j]` that is not whitespace, or `lo`. */
  function SkipBackward(s: string, lo: nat, j: nat): (k: nat)
    requires lo <= j <= |s|
    ensures lo <= k <= j
    ensures forall m :: k <= m < j ==> IsWhitespace(s[m])
    ensures k > lo ==> !IsWhitespace(s[k - 1])
    decreases j - lo
  {
    if j > lo && IsWhitespace(s[j - 1]) then SkipBackward(s, lo, j - 1) else j
  }

  /**
   * `String.prototype.trim`: a contiguous piece of `s`, all of whose
   * surroundings are whitespace, and which neither starts nor ends with it.
   */
  function Trim(s: string): (r: string)
    ensures IsTrimmed(r)
    ensures var lead := SkipForward(s, 0);
            && lead + |r| <= |s| && r == s[lead..lead + |r|]
            && AllWhitespace(s[..lead]) && AllWhitespace(s[lead + |r|..])
  {
    var lo := SkipForward(s, 0);
    var hi := SkipBackward(s, lo, |s|);
    s[lo..hi]
  }

  /** Trimming changes nothing exactly when the string is already trimmed. */
  lemma TrimFixpoint(s: string)
    ensures Trim(s) == s <==> IsTrimmed(s)
  {
    if IsTrimmed(s) && |s| > 0 {
      assert SkipForward(s, 0) == 0;
      assert SkipBackward(s, 0, |s|) == |s|;
      assert s[0..|s|] == s;
    }
  }

  /** A trimmed string is empty exactly when the original was all whitespace. */
  lemma TrimEmpty(s: string)
    ensures Trim(s) == [] <==> AllWhitespace(s)
  {
    var lead := SkipForward(s, 0);
    if Trim(s) == [] {
      assert lead == |s|;
      forall k | 0 <= k < |s|
        ensures IsWhitespace(s[k])
      {
        assert s[..lead][k] == s[k];
      }
    }
  }

  lemma TrimIdempotent(s: string)
    ensures Trim(Trim(s)) == Trim(s)
  {
    TrimFixpoint(Trim(s));
  }

  // ---------------------------------------------------------------------------
  // Splitting and joining

  /** `sep` does not occur anywhere in `t`. */
  predicate NoOccurrence(t: string, sep: string) {
    forall i :: 0 <= i <= |t| - |sep| ==> !(sep <= t[i..])
  }

  /**
   * `s.split(sep)` for a non-empty string separator: scanning from the left,
   * every occurrence of `sep` that does not overlap an earlier one ends a piece.
   */
  function Split(s: string, sep: string): (r: seq<string>)
    requires |sep| > 0
    ensures |r| >= 1
    ensures r[0] <= s
    ensures forall i :: 0 <= i < |r| ==> NoOccurrence(r[i], sep)
    decreases |s|
  {
    if |s| == 0 then [""]
    else if sep <= s then [""] + Split(s[|sep|..], sep)
    else
      var rest := Split(s[1..], sep);
      GlueKeepsNoOccurrence(s, rest[0], sep);
      [[s[0]] + rest[0]] + rest[1..]
  }

  /** A separator-free prefix of `s[1..]`, with `s[0]` in front, stays separator-free when `s` does not start with `sep`. */
  lemma GlueKeepsNoOccurrence(s: string, p: string, sep: string)
    requires |s| > 0 && |sep| > 0 && !(sep <= s)
    requires p <= s[1..] && NoOccurrence(p, sep)
    ensures NoOccurrence([s[0]] + p, sep)
  {
    var t := [s[0]] + p;
    forall i | 0 <= i <= |t| - |sep|
      ensures !(sep <= t[i..])
    {
      if i == 0 {
        assert t <= s;
      } else {
        assert t[i..] == p[i - 1..];
      }
    }
  }

  /** Total length of the pieces. */
  function TotalLength(parts: seq<string>): nat
  {
    if |parts| == 0 then 0 else |parts[0]| + TotalLength(parts[1..])
  }

  /**
   * `parts.join(sep)`: the empty list joins to the empty string; otherwise the
   * pieces in order with one separator between neighbours.
   */
  function Join(parts: seq<string>, sep: string): (r: string)
    ensures |parts| == 0 ==> r == ""
    ensures |parts| >= 1 ==> parts[0] <= r
  {
    if |parts| == 0 then ""
    else if |parts| == 1 then parts[0]
    else parts[0] + sep + Join(parts[1..], sep)
  }

  /** A join is as long as its pieces plus one separator between each pair of neighbours. */
  lemma {:induction false} JoinLength(parts: seq<string>, sep: string)
    requires |parts| >= 1
    ensures |Join(parts, sep)| == TotalLength(parts) + (|parts| - 1) * |sep|
  {
    if |parts| >= 2 {
      JoinLength(parts[1..], sep);
    }
  }

  /** Joining a list of at least two pieces puts the separator after the first one. */
  lemma JoinCons(first: string, rest: seq<string>, sep: string)
    requires |rest| >= 1
    ensures Join([first] + rest, sep) == first + sep + Join(rest, sep)
  {
    assert ([first] + rest)[1..] == rest;
  }

  /** An empty first piece leaves only its separator in the join. */
  lemma JoinEmptyFirst(rest: seq<string>, sep: string)
    requires |rest| >= 1
    ensures Join([""] + rest, sep) == sep + Join(rest, sep)
  {
    JoinCons("", rest, sep);
    assert "" + sep == sep;
  }

  /** Gluing a character onto the first piece glues it onto the join. */
  lemma JoinGlue(c: char, parts: seq<string>, sep: string)
    requires |parts| >= 1
    ensures Join([[c] + parts[0]] + parts[1..], sep) == [c] + Join(parts, sep)
  {
    if |parts| >= 2 {
      assert parts == [parts[0]] + parts[1..];
      JoinCons(parts[0], parts[1..], sep);
      JoinCons([c] + parts[0], parts[1..], sep);
    }
  }

  /** One step of `Split` on a string that starts with the separator: an empty piece is cut off. */
  lemma SplitAtSeparator(s: string, sep: string)
    requires |sep| > 0 && sep <= s
    ensures Split(s, sep) == [""] + Split(s[|sep|..], sep)
  {
  }

  /** One step of `Split` on a string that does not start with the separator. */
  lemma SplitGlue(s: string, sep: string)
    requires |s| > 0 && |sep| > 0 && !(sep <= s)
    ensures Split(s, sep) == [[s[0]] + Split(s[1..], sep)[0]] + Split(s[1..], sep)[1..]
  {
  }

  /** Joining the pieces of a split with the same separator gives back the original string. */
  lemma {:induction false} JoinSplit(s: string, sep: string)
    requires |sep| > 0
    ensures Join(Split(s, sep), sep) == s
    decreases |s|
  {
    if |s| == 0 {
    } else if sep <= s {
      JoinSplit(s[|sep|..], sep);
      JoinSplitAtSeparator(s, sep);
    } else {
      JoinSplit(s[1..], sep);
      JoinSplitGlue(s, sep);
    }
  }

  lemma HeadTail(s: string)
    requires |s| > 0
    ensures s == [s[0]] + s[1..]
  {
  }

  /** The step of `JoinSplit` for a string that starts with the separator. */
  lemma JoinSplitAtSeparator(s: string, sep: string)
    requires |sep| > 0 && sep <= s
    requires Join(Split(s[|sep|..], sep), sep) == s[|sep|..]
    ensures Join(Split(s, sep), sep) == s
  {
    var tail := s[|sep|..];
    var rest := Split(tail, sep);
    SplitAtSeparator(s, sep);
    JoinEmptyFirst(rest, sep);
    assert s == sep + tail;
  }

  /** The step of `JoinSplit` for a string that does not start with the separator. */
  lemma JoinSplitGlue(s: string, sep: string)
    requires |s| > 0 && |sep| > 0 && !(sep <= s)
    requires Join(Split(s[1..], sep), sep) == s[1..]
    ensures Join(Split(s, sep), sep) == s
  {
    var tail := s[1..];
    var rest := Split(tail, sep);
    SplitGlue(s, sep);
    JoinGlue(s[0], rest, sep);
    HeadTail(s);
  }

  // ---------------------------------------------------------------------------
  // Decimal rendering of integers

  predicate IsDigit(c: char) {
    '0' <= c <= '9'
  }

  predicate AllDigits(s: string) {
    forall i :: 0 <= i < |s| ==> IsDigit(s[i])
  }

  function DigitChar(d: nat): (c: char)
    requires d < 10
    ensures IsDigit(c)
  {
    (48 + d) as char
  }

  function DigitValue(c: char): (d: nat)
    requires IsDigit(c)
    ensures d < 10
  {
    (c as int) - 48
  }

  /** Decimal digits of `n`, most significant first, with no leading zero. */
  function NatToDecimal(n: nat): (r: string)
    ensures |r| >= 1 && AllDigits(r)
    ensures r[0] == '0' ==> n == 0 && r == "0"
    decreases n
  {
    if n < 10 then [DigitChar(n)] else NatToDecimal(n / 10) + [DigitChar(n % 10)]
  }

  /** `n.toString()` for an integer: a minus sign for negatives, then the digits of `|n|`. */
  function IntToDecimal(n: int): (r: string)
    ensures |r| >= 1
    ensures n >= 0 ==> AllDigits(r)
    ensures n < 0 ==> r[0] == '-' && AllDigits(r[1..])
  {
    if n < 0 then "-" + NatToDecimal(-n) else NatToDecimal(n)
  }

  /** The value of a string of decimal digits (the empty string reads as 0). */
  function ParseNat(s: string): nat
    requires AllDigits(s)
  {
    if |s| == 0 then 0 else ParseNat(s[..|s| - 1]) * 10 + DigitValue(s[|s| - 1])
  }

  /** Reads an optionally negative decimal integer; anything else is None. */
  function ParseInt(s: string): Option<int>
  {
    if |s| >= 2 && s[0] == '-' && AllDigits(s[1..]) then Some(0 - ParseNat(s[1..]) as int)
    else if |s| >= 1 && AllDigits(s) then Some(ParseNat(s))
    else None
  }

  lemma {:induction false} ParseNatToDecimal(n: nat)
    ensures ParseNat(NatToDecimal(n)) == n
    decreases n
  {
    if n >= 10 {
      var r := NatToDecimal(n);
      ParseNatToDecimal(n / 10);
      assert r[..|r| - 1] == NatToDecimal(n / 10);
    }
  }

  /** The decimal rendering of an integer reads back as that integer, so it is injective. */
  lemma IntToDecimalRoundTrip(n: int)
    ensures ParseInt(IntToDecimal(n)) == Some(n)
  {
    if n < 0 {
      ParseNatToDecimal(-n);
      assert IntToDecimal(n)[1..] == NatToDecimal(-n);
    } else {
      ParseNatToDecimal(n);
    }
  }

  lemma IntToDecimalInjective(m: int, n: int)
    ensures IntToDecimal(m) == IntToDecimal(n) <==> m == n
  {
    IntToDecimalRoundTrip(m);
    IntToDecimalRoundTrip(n);
  }
}

=== FILE: task_converter.dfy ===
/**
 * Translation between the wire task (numeric status and priority, a
 * comma-joined tag string) and the client task (client/src/utils/taskConverter.ts).
 * The wire numbers are those of the server's enums: status Todo=0,
 * InProgress=1, Done=2 and priority Low=1, Medium=2, High=3.
 */
module TaskConverter {
  import opened Wrappers
  import opened Strings
  import opened Types
  import opened Sequences

  /** A task as the server sends it. */
  datatype ApiTask = ApiTask(
    id: int,
    title: string,
    description: Option<string>,
    status: int,
    priority: int,
    createdAt: string,
    updatedAt: string,
    dueDate: Option<string>,
    hasNotification: Option<bool>,
    tags: Option<string>)

  /** The payload of a create request: no id, no timestamps. */
  datatype CreateTaskRequest = CreateTaskRequest(
    title: string,
    description: Option<string>,
    status: int,
    priority: int,
    dueDate: Option<string>,
    hasNotification: Option<bool>,
    tags: Option<string>)

  /** A client task without its `id` and `createdAt`. */
  datatype TaskFields = TaskFields(
    title: string,
    description: Option<string>,
    status: Status,
    priority: Priority,
    dueDate: Option<int>,
    hasNotification: Option<bool>,
    tags: Option<seq<string>>)

  const TagSeparator: string := ", "

  // ---------------------------------------------------------------------------
  // Status and priority

  function StatusToApi(s: Status): (n: int)
    ensures 0 <= n <= 2
  {
    match s
    case Todo => 0
    case InProgress => 1
    case Done => 2
  }

  function PriorityToApi(p: Priority): (n: int)
    ensures 1 <= n <= 3
  {
    match p
    case Low => 1
    case Medium => 2
    case High => 3
  }

  /** Lenient decoding: inverts the encoding on 0..2; any other number is Todo. */
  function ApiToStatus(n: int): (s: Status)
    ensures 0 <= n <= 2 ==> StatusToApi(s) == n
    ensures !(0 <= n <= 2) ==> s == Todo
  {
    if n == 0 then Todo
    else if n == 1 then InProgress
    else if n == 2 then Done
    else Todo
  }

  /** Lenient decoding: inverts the encoding on 1..3; any other number is Low. */
  function ApiToPriority(n: int): (p: Priority)
    ensures 1 <= n <= 3 ==> PriorityToApi(p) == n
    ensures !(1 <= n <= 3) ==> p == Low
  {
    if n == 1 then Low
    else if n == 2 then Medium
    else if n == 3 then High
    else Low
  }

  lemma StatusRoundTrip(s: Status)
    ensures ApiToStatus(StatusToApi(s)) == s
    ensures StatusToApi(s) == (match s case Todo => 0 case InProgress => 1 case Done => 2)
  {
  }

  lemma PriorityRoundTrip(p: Priority)
    ensures ApiToPriority(PriorityToApi(p)) == p
    ensures PriorityToApi(p) == (match p case Low => 1 case Medium => 2 case High => 3)
  {
  }

  /** Re-encoding a decoded status is the identity on 0..2 and yields the default 0 elsewhere. */
  lemma StatusDecodeEncode(n: int)
    ensures StatusToApi(ApiToStatus(n)) == if 0 <= n <= 2 then n else 0
    ensures !(0 <= n <= 2) ==> ApiToStatus(n) == Todo
  {
  }

  /** Re-encoding a decoded priority is the identity on 1..3 and yields the default 1 elsewhere. */
  lemma PriorityDecodeEncode(n: int)
    ensures PriorityToApi(ApiToPriority(n)) == if 1 <= n <= 3 then n else 1
    ensures !(1 <= n <= 3) ==> ApiToPriority(n) == Low
  {
  }

  // ---------------------------------------------------------------------------
  // Tags

  /** `map(tag => tag.trim())` */
  function TrimAll(xs: seq<string>): (r: seq<string>)
    ensures |r| == |xs|
    ensures forall i :: 0 <= i < |r| ==> r[i] == Trim(xs[i])
  {
    if |xs| == 0 then [] else [Trim(xs[0])] + TrimAll(xs[1..])
  }

  /** `filter(tag => tag)`: keeps the non-empty strings, in order, each as often as in `xs`. */
  function DropEmpty(xs: seq<string>): (r: seq<string>)
    ensures |r| <= |xs|
    ensures Subsequence(r, xs)
    ensures forall x :: multiset(r)[x] == if x != "" then multiset(xs)[x] else 0
    ensures forall i :: 0 <= i < |r| ==> r[i] != ""
    ensures forall x :: x in r <==> x in xs && x != ""
  {
    if |xs| == 0 then []
    else
      var rest := DropEmpty(xs[1..]);
      var r := if xs[0] != "" then [xs[0]] + rest else rest;
      FilterStep(xs, rest, (x: string) => x != "");
      FilterMembers(xs, r, (x: string) => x != "");
      NoEmptyAt(r);
      r
  }

  lemma NoEmptyAt(r: seq<string>)
    requires forall x :: x in r ==> x != ""
    ensures forall i :: 0 <= i < |r| ==> r[i] != ""
  {
    forall i | 0 <= i < |r|
      ensures r[i] != ""
    {
      assert r[i] in r;
    }
  }

  /** A tag list the wire string can carry back unchanged. */
  predicate TransportableTags(ts: seq<string>) {
    && |ts| > 0
    && forall i :: 0 <= i < |ts| ==> ts[i] != "" && IsTrimmed(ts[i]) && NoOccurrence(ts[i], TagSeparator)
  }

  /**
   * An absent or empty wire string is no tags; otherwise the tags are the
   * trimmed pieces of the split on ", " that are not blank, in order, each as
   * often as it occurs.
   */
  function DecodeTags(tags: Option<string>): (r: Option<seq<string>>)
    ensures r.None? <==> tags.None? || tags.value == ""
    ensures r.Some? ==> forall i :: 0 <= i < |r.value| ==> r.value[i] != "" && IsTrimmed(r.value[i])
    ensures r.Some? ==> forall x ::
              x in r.value <==> exists p :: p in Split(tags.value, TagSeparator) && x == Trim(p) && x != ""
    ensures r.Some? ==> Subsequence(r.value, TrimAll(Split(tags.value, TagSeparator)))
    ensures r.Some? ==> forall x ::
              multiset(r.value)[x] == if x != "" then multiset(TrimAll(Split(tags.value, TagSeparator)))[x] else 0
  {
    if tags.None? || tags.value == "" then None
    else
      var pieces := Split(tags.value, TagSeparator);
      KeptPiecesTrimmed(TrimAll(pieces));
      KeptPieces(pieces);
      Some(DropEmpty(TrimAll(pieces)))
  }

  /** The pieces kept by the filter are trimmed when every piece is. */
  lemma KeptPiecesTrimmed(pieces: seq<string>)
    requires forall i :: 0 <= i < |pieces| ==> IsTrimmed(pieces[i])
    ensures forall i :: 0 <= i < |DropEmpty(pieces)| ==> IsTrimmed(DropEmpty(pieces)[i])
  {
    var kept := DropEmpty(pieces);
    forall i | 0 <= i < |kept|
      ensures IsTrimmed(kept[i])
    {
      assert kept[i] in pieces;
      var j :| 0 <= j < |pieces| && pieces[j] == kept[i];
    }
  }

  /** A tag is kept exactly when it is the non-blank trimmed form of some piece. */
  lemma KeptPieces(pieces: seq<string>)
    ensures forall x :: x in DropEmpty(TrimAll(pieces)) <==> exists p :: p in pieces && x == Trim(p) && x != ""
  {
    var trimmed := TrimAll(pieces);
    forall x
      ensures x in DropEmpty(trimmed) <==> exists p :: p in pieces && x == Trim(p) && x != ""
    {
      if x in DropEmpty(trimmed) {
        var i :| 0 <= i < |trimmed| && trimmed[i] == x;
        assert pieces[i] in pieces && x == Trim(pieces[i]);
      }
      if exists p :: p in pieces && x == Trim(p) && x != "" {
        var p :| p in pieces && x == Trim(p) && x != "";
        var i :| 0 <= i < |pieces| && pieces[i] == p;
        assert trimmed[i] == x;
      }
    }
  }

  /** An absent list stays absent; a present one, even empty, is joined with ", ". */
  function EncodeTags(tags: Option<seq<string>>): (r: Option<string>)
    ensures r.None? <==> tags.None?
    ensures tags.Some? && tags.value == [] ==> r == Some("")
  {
    match tags
    case None => None
    case Some(ts) => Some(Join(ts, TagSeparator))
  }

  /** An empty tag list does not survive the trip: it comes back absent. */
  lemma EmptyTagsComeBackAbsent()
    ensures DecodeTags(EncodeTags(Some([]))) == None
  {
  }

  /** Splitting at the first separator: a piece free of ", " followed by ", " is cut off whole. */
  lemma {:induction false} SplitAfterPiece(t: string, rest: string)
    requires NoOccurrence(t, TagSeparator)
    ensures Split(t + TagSeparator + rest, TagSeparator) == [t] + Split(rest, TagSeparator)
    decreases |t|
  {
    var s := t + TagSeparator + rest;
    if |t| == 0 {
      assert s == TagSeparator + rest;
      assert s[|TagSeparator|..] == rest;
    } else {
      var t' := t[1..];
      NoSeparatorAtStart(t, rest);
      NoOccurrenceTail(t, TagSeparator);
      SplitAfterPiece(t', rest);
      TailOfJoined(t, rest);
      SplitGlue(s, TagSeparator);
      GluedPiece(t, Split(s[1..], TagSeparator), Split(rest, TagSeparator));
    }
  }

  /** A piece free of ", " that is not empty cannot start with ", " even with ", " after it. */
  lemma NoSeparatorAtStart(t: string, rest: string)
    requires |t| > 0 && NoOccurrence(t, TagSeparator)
    ensures !(TagSeparator <= t + TagSeparator + rest)
  {
    var s := t + TagSeparator + rest;
    if |t| >= 2 {
      assert s[..2] == t[0..][..2];
      assert !(TagSeparator <= t[0..]);
    } else {
      assert s[1] == ',';
    }
  }

  lemma NoOccurrenceTail(t: string, sep: string)
    requires |t| > 0 && NoOccurrence(t, sep)
    ensures NoOccurrence(t[1..], sep)
  {
    forall i | 0 <= i <= |t[1..]| - |sep|
      ensures !(sep <= t[1..][i..])
    {
      assert t[1..][i..] == t[i + 1..];
    }
  }

  /** Dropping the first character of `t + ", " + rest` drops it from `t`. */
  lemma TailOfJoined(t: string, rest: string)
    requires |t| > 0
    ensures (t + TagSeparator + rest)[0] == t[0]
    ensures (t + TagSeparator + rest)[1..] == t[1..] + TagSeparator + rest
  {
  }

  /** Gluing the first character of `t` back onto the first piece `t[1..]` gives `t`. */
  lemma GluedPiece(t: string, pieces: seq<string>, restPieces: seq<string>)
    requires |t| > 0 && pieces == [t[1..]] + restPieces
    ensures [[t[0]] + pieces[0]] + pieces[1..] == [t] + restPieces
  {
    assert [t[0]] + t[1..] == t;
    assert pieces[1..] == restPieces;
  }

  lemma SplitWithoutSeparator(t: string)
    requires NoOccurrence(t, TagSeparator)
    ensures Split(t, TagSeparator) == [t]
    decreases |t|
  {
    if |t| > 0 {
      assert !(TagSeparator <= t) by {
        if |t| >= 2 {
          assert t[0..] == t;
        }
      }
      assert NoOccurrence(t[1..], TagSeparator) by {
        forall i | 0 <= i <= |t[1..]| - |TagSeparator|
          ensures !(TagSeparator <= t[1..][i..])
        {
          assert t[1..][i..] == t[i + 1..];
        }
      }
      SplitWithoutSeparator(t[1..]);
      assert [t[0]] + t[1..] == t;
    }
  }

  /** Splitting a join of separator-free pieces gives back the pieces. */
  lemma {:induction false} SplitJoin(ts: seq<string>)
    requires |ts| > 0
    requires forall i :: 0 <= i < |ts| ==> NoOccurrence(ts[i], TagSeparator)
    ensures Split(Join(ts, TagSeparator), TagSeparator) == ts
    decreases |ts|
  {
    if |ts| == 1 {
      SplitWithoutSeparator(ts[0]);
    } else {
      SplitJoin(ts[1..]);
      SplitAfterPiece(ts[0], Join(ts[1..], TagSeparator));
      assert [ts[0]] + ts[1..] == ts;
    }
  }

  lemma {:induction false} TrimAllTrimmed(ts: seq<string>)
    requires forall i :: 0 <= i < |ts| ==> IsTrimmed(ts[i])
    ensures TrimAll(ts) == ts
  {
    forall i | 0 <= i < |ts|
      ensures Trim(ts[i]) == ts[i]
    {
      TrimFixpoint(ts[i]);
    }
  }

  lemma {:induction false} DropEmptyNonEmpty(ts: seq<string>)
    requires forall i :: 0 <= i < |ts| ==> ts[i] != ""
    ensures DropEmpty(ts) == ts
    decreases |ts|
  {
    if |ts| > 0 {
      DropEmptyNonEmpty(ts[1..]);
      assert [ts[0]] + ts[1..] == ts;
    }
  }

  /** A non-empty list of trimmed, non-empty tags free of ", " survives encode then decode. */
  lemma TagsRoundTrip(ts: seq<string>)
    requires TransportableTags(ts)
    ensures DecodeTags(EncodeTags(Some(ts))) == Some(ts)
  {
    var wire := Join(ts, TagSeparator);
    assert wire != "";
    SplitJoin(ts);
    TrimAllTrimmed(ts);
    DropEmptyNonEmpty(ts);
    assert DecodeTags(Some(wire)) == Some(DropEmpty(TrimAll(Split(wire, TagSeparator))));
  }

  // ---------------------------------------------------------------------------
  // Whole tasks. Date parsing and formatting depend on the host's clock and
  // time zone, so they are parameters: `parseDate` is `new Date(s).getTime()`,
  // `formatDueDate` is the offset-compensated `toISOString()`.

  /** `convertApiTaskToTask` */
  function ApiTaskToTask(a: ApiTask, parseDate: string -> int): (t: Task)
    ensures t.id == IntToDecimal(a.id)
    ensures t.title == a.title && t.description == a.description
    ensures t.hasNotification == a.hasNotification
    ensures t.status == ApiToStatus(a.status) && t.priority == ApiToPriority(a.priority)
    ensures t.dueDate.Some? <==> a.dueDate.Some? && a.dueDate.value != ""
    ensures t.tags == DecodeTags(a.tags)
  {
    Task(
      IntToDecimal(a.id),
      a.title,
      a.description,
      ApiToStatus(a.status),
      ApiToPriority(a.priority),
      parseDate(a.createdAt),
      if a.dueDate.Some? && a.dueDate.value != "" then Some(parseDate(a.dueDate.value)) else None,
      a.hasNotification,
      DecodeTags(a.tags))
  }

  /** `convertTaskToCreateRequest` */
  function TaskToCreateRequest(f: TaskFields, formatDueDate: int -> string): (r: CreateTaskRequest)
    ensures r.title == f.title && r.description == f.description
    ensures r.hasNotification == f.hasNotification
    ensures 0 <= r.status <= 2 && 1 <= r.priority <= 3
    ensures r.dueDate.Some? <==> f.dueDate.Some?
    ensures r.tags == EncodeTags(f.tags)
  {
    CreateTaskRequest(
      f.title,
      f.description,
      StatusToApi(f.status),
      PriorityToApi(f.priority),
      if f.dueDate.Some? then Some(formatDueDate(f.dueDate.value)) else None,
      f.hasNotification,
      EncodeTags(f.tags))
  }

  /** The wire record a store that keeps every field of a create request would send back. */
  function Echo(req: CreateTaskRequest, id: int, createdAt: string, updatedAt: string): ApiTask
  {
    ApiTask(id, req.title, req.description, req.status, req.priority, createdAt, updatedAt,
            req.dueDate, req.hasNotification, req.tags)
  }

  /** Date formatting the parser inverts, never producing the empty string. */
  ghost predicate DateCodec(parseDate: string -> int, formatDueDate: int -> string) {
    forall d :: formatDueDate(d) != "" && parseDate(formatDueDate(d)) == d
  }

  /**
   * The due-date formatter of `convertTaskToCreateRequest`: the instant moved
   * by the host's time-zone offset for it (`getTimezoneOffset`, in minutes)
   * and written in UTC by `iso` (`toISOString`).
   */
  function OffsetFormat(iso: int -> string, offsetMinutes: int -> int, d: int): string
  {
    iso(d - offsetMinutes(d) * 60000)
  }

  /**
   * Read back by a parser that inverts `iso`, the offset formatter returns the
   * due date moved by the offset, so away from UTC it is not a date codec.
   */
  lemma OffsetFormatShifts(parseDate: string -> int, iso: int -> string, offsetMinutes: int -> int, d: int)
    requires forall x :: parseDate(iso(x)) == x
    ensures parseDate(OffsetFormat(iso, offsetMinutes, d)) == d - offsetMinutes(d) * 60000
    ensures offsetMinutes(d) != 0 ==> !DateCodec(parseDate, x => OffsetFormat(iso, offsetMinutes, x))
  {
    var format := x => OffsetFormat(iso, offsetMinutes, x);
    assert parseDate(OffsetFormat(iso, offsetMinutes, d)) == d - offsetMinutes(d) * 60000;
    if offsetMinutes(d) != 0 {
      assert parseDate(format(d)) != d;
    }
  }

  /** The fields of a client task survive encoding, a faithful store, and decoding. */
  lemma TaskRoundTrip(f: TaskFields, id: int, createdAt: string, updatedAt: string,
                      parseDate: string -> int, formatDueDate: int -> string)
    requires DateCodec(parseDate, formatDueDate)
    requires f.tags.None? || TransportableTags(f.tags.value)
    ensures ApiTaskToTask(Echo(TaskToCreateRequest(f, formatDueDate), id, createdAt, updatedAt), parseDate)
            == Task(IntToDecimal(id), f.title, f.description, f.status, f.priority,
                    parseDate(createdAt), f.dueDate, f.hasNotification, f.tags)
  {
    StatusRoundTrip(f.status);
    PriorityRoundTrip(f.priority);
    if f.tags.Some? {
      TagsRoundTrip(f.tags.value);
    }
    if f.dueDate.Some? {
      var d := f.dueDate.value;
      assert formatDueDate(d) != "" && parseDate(formatDueDate(d)) == d;
    }
  }
}

=== FILE: task_modal.dfy ===
/**
 * The task form (client/src/components/TaskModal.tsx): the fields it resets or
 * prefills when the edited task changes, and what a submit hands to `onSave`.
 */
module TaskModal {
  import opened Wrappers
  import opened Strings
  import opened Types

  /** The form's three controlled fields. */
  datatype Form = Form(title: string, description: string, priority: Priority)

  /** The object passed to `onSave`: exactly these four keys, nothing else. */
  datatype Draft = Draft(title: string, description: string, status: Status, priority: Priority)

  /** The effect run when `task` changes: prefill from the task, or reset. */
  function Prefill(task: Option<Task>): (f: Form)
    ensures task.None? ==> f == Form("", "", Medium)
    ensures task.Some? ==>
      && f.title == task.value.title
      && f.priority == task.value.priority
      && (task.value.description.Some? ==> f.description == task.value.description.value)
      && (task.value.description.None? ==> f.description == "")
  {
    match task
    case Some(t) => Form(t.title, t.description.GetOr(""), t.priority)
    case None => Form("", "", Medium)
  }

  /**
   * `handleSubmit`: a blank title saves nothing and keeps the form open (None);
   * otherwise the trimmed fields, the `status` prop and the chosen priority are
   * saved and the form closes.
   */
  function Submit(f: Form, status: Status): (r: Option<Draft>)
    ensures r.None? <==> AllWhitespace(f.title)
    ensures r.Some? ==>
      && r.value.title == Trim(f.title) && r.value.title != "" && IsTrimmed(r.value.title)
      && r.value.description == Trim(f.description) && IsTrimmed(r.value.description)
      && r.value.status == status
      && r.value.priority == f.priority
  {
    TrimEmpty(f.title);
    var title := Trim(f.title);
    if title != "" then Some(Draft(title, Trim(f.description), status, f.priority)) else None
  }

  /** A form just prefilled from a task, submitted untouched, saves the task's own fields. */
  lemma UntouchedEditSavesSameFields(t: Task)
    requires t.title != "" && IsTrimmed(t.title)
    requires t.description.None? || IsTrimmed(t.description.value)
    ensures Submit(Prefill(Some(t)), t.status) ==
            Some(Draft(t.title, t.description.GetOr(""), t.status, t.priority))
  {
    var f := Prefill(Some(t));
    assert f == Form(t.title, t.description.GetOr(""), t.priority);
    TrimFixpoint(t.title);
    TrimFixpoint(f.description);
    assert Trim(f.title) == t.title;
    assert Trim(f.description) == f.description;
  }

  // ---------------------------------------------------------------------------
  // The mounted form

  /**
   * The form as the board keeps it mounted: its fields survive closing (the
   * `isOpen` early return comes after the hooks), and `effectFor` is the
   * `task` prop the prefill effect last ran for.
   */
  datatype Mounted = Mounted(form: Form, effectFor: Option<Task>)

  /** First render: the effect runs once for the initial prop. */
  function Mount(task: Option<Task>): (m: Mounted)
    ensures m.form == Prefill(task) && m.effectFor == task
  {
    Mounted(Prefill(task), task)
  }

  /**
   * A later render with prop `task`: the effect runs only when the prop
   * changed since it last ran; otherwise the fields keep what they hold.
   */
  function Rerender(m: Mounted, task: Option<Task>): (r: Mounted)
    ensures r.effectFor == task
    ensures task != m.effectFor ==> r.form == Prefill(task)
    ensures task == m.effectFor ==> r == m
  {
    if task == m.effectFor then m else Mounted(Prefill(task), task)
  }

  /** The user edits the fields. */
  function EditFields(m: Mounted, f: Form): (r: Mounted)
    ensures r.form == f && r.effectFor == m.effectFor
  {
    m.(form := f)
  }

  /**
   * A second "add" after an add keeps the prop at no task, so the effect does
   * not run and the form opens with whatever the previous draft left in it.
   */
  lemma SecondAddKeepsDraft(m: Mounted, f: Form)
    requires m.effectFor.None?
    ensures Rerender(EditFields(m, f), None).form == f
  {
  }

  /** Reopening the same task after a cancelled edit shows the abandoned typing, not the task. */
  lemma ReopenKeepsAbandonedTyping(m: Mounted, t: Task, f: Form)
    ensures var shown := Rerender(m, Some(t));
            Rerender(EditFields(shown, f), Some(t)).form == f
  {
  }

  /**
   * Opening a task the effect has not last run for, and submitting without
   * touching the form, saves the task's own fields.
   */
  lemma UntouchedEditAfterEffect(m: Mounted, t: Task)
    requires m.effectFor != Some(t)
    requires t.title != "" && IsTrimmed(t.title)
    requires t.description.None? || IsTrimmed(t.description.value)
    ensures Submit(Rerender(m, Some(t)).form, t.status) ==
            Some(Draft(t.title, t.description.GetOr(""), t.status, t.priority))
  {
    UntouchedEditSavesSameFields(t);
  }

  /** A freshly reset form cannot be submitted until a title is typed. */
  lemma ResetFormIsRejected(status: Status)
    ensures Submit(Prefill(None), status) == None
  {
  }
}

=== FILE: tasks_controller.dfy ===
/**
 * The server's task endpoints (KanbanBoard/Controllers/TasksController.cs)
 * over an abstract store: a map from id to record standing in for the
 * database table. Clock readings (`DateTime.UtcNow`) and the id the database
 * generates on insert are parameters.
 */
module TasksController {
  import opened Wrappers
  import opened Types
  import TaskConverter

  /**
   * KanbanBoard/Models/TaskItem.cs as JSON binding fills it: `Title` is `None`
   * for an explicit `null` title (see `BindTitle`); `Priority` and `Status`
   * are plain enums, so binding stores whatever integer the body carries;
   * instants are clock ticks.
   */
  datatype TaskItem = TaskItem(
    id: int,
    title: Option<string>,
    description: Option<string>,
    priority: int,
    status: int,
    createdAt: int,
    updatedAt: int)

  /** How a JSON body gives the title: left out, an explicit `null`, or a string. */
  datatype TitleField = Missing | Null | Text(text: string)

  /**
   * The bound `Title`. A missing field keeps the property initializer
   * `string.Empty`; `null` is bound as null; a string is kept as sent, empty
   * or blank included (the JSON input formatter does not turn `""` into null).
   */
  function BindTitle(f: TitleField): (t: Option<string>)
    ensures t.None? <==> f.Null?
    ensures t.Some? ==> t.value == (if f.Text? then f.text else "")
  {
    match f
    case Missing => Some("")
    case Null => None
    case Text(text) => Some(text)
  }

  /**
   * Model validation under `[ApiController]`: the non-nullable `Title` gets an
   * implicit `[Required]` that allows empty strings, so only a null title is
   * answered with 400 before the action runs.
   */
  predicate BodyValid(body: TaskItem) {
    body.title.Some?
  }

  type Store = map<int, TaskItem>

  /** The HTTP outcomes the controller produces. */
  datatype ActionResult<T> = Ok(value: T) | Created(value: T) | NoContent | NotFound | BadRequest

  /** The result of a request together with the store after it. */
  datatype Reply<T> = Reply(result: ActionResult<T>, store: Store)

  /** Every record is filed under its own id. */
  predicate Keyed(store: Store) {
    forall k :: k in store ==> store[k].id == k
  }

  /** `items[i]` is the record stored under `keys[i]`, and no key is listed twice. */
  predicate Enumerates(keys: seq<int>, items: seq<TaskItem>, store: Store) {
    && |keys| == |items|
    && (forall i, j :: 0 <= i < j < |keys| ==> keys[i] != keys[j])
    && forall i :: 0 <= i < |keys| ==> keys[i] in store && items[i] == store[keys[i]]
  }

  /** `GET api/tasks`: every stored record once, in no promised order. */
  method GetTasks(store: Store) returns (r: ActionResult<seq<TaskItem>>)
    ensures r.Ok?
    ensures |r.value| == |store|
    ensures forall k :: k in store ==> store[k] in r.value
    ensures forall x :: x in r.value ==> x in store.Values
    ensures exists keys :: Enumerates(keys, r.value, store)
  {
    var keys := store.Keys;
    var items: seq<TaskItem> := [];
    ghost var taken: seq<int> := [];
    while keys != {}
      invariant keys <= store.Keys
      invariant |items| + |keys| == |store|
      invariant |taken| == |items|
      invariant forall i :: 0 <= i < |taken| ==> taken[i] in store && items[i] == store[taken[i]]
      invariant forall k :: k in store && k !in keys ==> k in taken
      invariant forall i :: 0 <= i < |taken| ==> taken[i] !in keys
      invariant forall i, j :: 0 <= i < j < |taken| ==> taken[i] != taken[j]
      decreases |keys|
    {
      EmptyOrInhabited(keys);
      var key :| key in keys;
      assert forall i :: 0 <= i < |taken| ==> taken[i] != key;
      items := items + [store[key]];
      taken := taken + [key];
      keys := keys - {key};
    }
    ListingFacts(store, taken, items);
    r := Ok(items);
  }

  /** A listing of distinct keys that covers the store holds each stored record and nothing else. */
  lemma ListingFacts(store: Store, taken: seq<int>, items: seq<TaskItem>)
    requires |taken| == |items|
    requires forall i :: 0 <= i < |taken| ==> taken[i] in store && items[i] == store[taken[i]]
    requires forall i, j :: 0 <= i < j < |taken| ==> taken[i] != taken[j]
    requires forall k :: k in store ==> k in taken
    ensures Enumerates(taken, items, store)
    ensures forall k :: k in store ==> store[k] in items
    ensures forall x :: x in items ==> x in store.Values
  {
    forall k | k in store
      ensures store[k] in items
    {
      var i :| 0 <= i < |taken| && taken[i] == k;
      assert items[i] == store[k];
    }
  }

  /** A set is empty or has a member. */
  lemma EmptyOrInhabited(s: set<int>)
    ensures s == {} || exists x :: x in s
  {
    assert (forall x :: x !in s) ==> s == {};
  }

  /** `GET api/tasks/{id}` */
  function GetTaskById(store: Store, id: int): (r: ActionResult<TaskItem>)
    ensures r.NotFound? <==> id !in store
    ensures r.NotFound? || r == Ok(store[id])
  {
    if id !in store then NotFound else Ok(store[id])
  }

  /**
   * `POST api/tasks`: an invalid body is refused; otherwise both timestamps are
   * overwritten with clock readings and the record is stored under the id the
   * database generates.
   */
  function CreateTask(store: Store, task: TaskItem, createdNow: int, updatedNow: int, newId: int): (r: Reply<TaskItem>)
    requires newId !in store
    ensures r.result.BadRequest? <==> !BodyValid(task)
    ensures r.result.BadRequest? || r.result.Created?
    ensures r.result.BadRequest? ==> r.store == store
    ensures r.result.Created? ==>
      && r.result.value.id == newId
      && r.result.value.createdAt == createdNow && r.result.value.updatedAt == updatedNow
      && r.result.value.(id := task.id, createdAt := task.createdAt, updatedAt := task.updatedAt) == task
      && r.store.Keys == store.Keys + {newId} && r.store[newId] == r.result.value
      && forall k :: k in store ==> r.store[k] == store[k]
  {
    if !BodyValid(task) then Reply(BadRequest, store)
    else
      var stored := task.(createdAt := createdNow, updatedAt := updatedNow, id := newId);
      Reply(Created(stored), store[newId := stored])
  }

  /**
   * `PUT api/tasks/{id}`: an invalid body, or one whose id differs from the
   * route's, is refused; an unknown id is not found; otherwise the record is
   * replaced by the body, stamped with the clock reading.
   */
  function UpdateTask(store: Store, id: int, task: TaskItem, now: int): (r: Reply<()>)
    ensures r.result.BadRequest? <==> !BodyValid(task) || id != task.id
    ensures r.result.NotFound? <==> BodyValid(task) && id == task.id && id !in store
    ensures r.result.NoContent? <==> BodyValid(task) && id == task.id && id in store
    ensures !r.result.NoContent? ==> r.store == store
    ensures r.result.NoContent? ==> r.store == store[id := task.(updatedAt := now)]
  {
    if !BodyValid(task) || id != task.id then Reply(BadRequest, store)
    else
      var stamped := task.(updatedAt := now);
      if id !in store then Reply(NotFound, store)
      else Reply(NoContent, store[id := stamped])
  }

  /** `DELETE api/tasks/{id}` */
  function DeleteTask(store: Store, id: int): (r: Reply<()>)
    ensures r.result.NotFound? <==> id !in store
    ensures r.result.NotFound? || r.result.NoContent?
    ensures r.result.NotFound? ==> r.store == store
    ensures r.result.NoContent? ==> r.store.Keys == store.Keys - {id}
    ensures forall k :: k in r.store ==> r.store[k] == store[k]
  {
    if id !in store then Reply(NotFound, store) else Reply(NoContent, store - {id})
  }

  // ---------------------------------------------------------------------------
  // Properties across requests

  /** Every mutating endpoint keeps each record filed under its own id. */
  lemma EndpointsKeepStoreKeyed(store: Store, task: TaskItem, id: int, now: int, later: int, newId: int)
    requires Keyed(store)
    ensures newId !in store ==> Keyed(CreateTask(store, task, now, later, newId).store)
    ensures Keyed(UpdateTask(store, id, task, now).store)
    ensures Keyed(DeleteTask(store, id).store)
  {
  }

  /** A created record reads back as created; other records read back unchanged. */
  lemma GetAfterCreate(store: Store, task: TaskItem, now: int, later: int, newId: int, other: int)
    requires newId !in store && other != newId && BodyValid(task)
    ensures var r := CreateTask(store, task, now, later, newId);
            && GetTaskById(r.store, newId) == Ok(r.result.value)
            && GetTaskById(r.store, other) == GetTaskById(store, other)
  {
  }

  /** An accepted update reads back as the body with the new timestamp. */
  lemma GetAfterUpdate(store: Store, task: TaskItem, now: int)
    requires task.id in store && BodyValid(task)
    ensures GetTaskById(UpdateTask(store, task.id, task, now).store, task.id) == Ok(task.(updatedAt := now))
  {
  }

  /** A deleted record is gone, a second delete is not found, and the store shrank by one. */
  lemma DeleteThenGone(store: Store, id: int)
    requires id in store
    ensures GetTaskById(DeleteTask(store, id).store, id) == NotFound
    ensures DeleteTask(DeleteTask(store, id).store, id).result == NotFound
    ensures |DeleteTask(store, id).store| == |store| - 1
  {
  }

  /**
   * Binding does not check enum ranges: a status or priority outside the named
   * values is stored and served as is, and the client reads it as todo or low.
   */
  lemma OutOfRangeEnumsReadLeniently(store: Store, task: TaskItem, now: int, later: int, newId: int)
    requires newId !in store && BodyValid(task)
    requires !(0 <= task.status <= 2) && !(1 <= task.priority <= 3)
    ensures var r := CreateTask(store, task, now, later, newId);
            && r.result.Created? && r.store[newId].status == task.status && r.store[newId].priority == task.priority
            && TaskConverter.ApiToStatus(r.store[newId].status) == Todo
            && TaskConverter.ApiToPriority(r.store[newId].priority) == Low
  {
  }

  /** A null title is refused by both writing endpoints, and the store is left alone. */
  lemma NullTitleRefused(store: Store, task: TaskItem, now: int, later: int, newId: int)
    requires newId !in store && task.title == BindTitle(Null)
    ensures CreateTask(store, task, now, later, newId) == Reply(BadRequest, store)
    ensures UpdateTask(store, task.id, task, now) == Reply(BadRequest, store)
  {
  }

  /**
   * A missing, empty or blank title passes validation: the record is created
   * with the title as bound (`""` for a missing one), and an update of a
   * stored id is accepted.
   */
  lemma EmptyTitleAccepted(store: Store, task: TaskItem, f: TitleField, now: int, later: int, newId: int)
    requires newId !in store && !f.Null? && task.title == BindTitle(f)
    ensures var r := CreateTask(store, task, now, later, newId);
            && r.result.Created? && r.store[newId].title == task.title
            && (f.Missing? ==> r.store[newId].title == Some(""))
    ensures task.id in store ==> UpdateTask(store, task.id, task, now).result == NoContent
  {
  }
}

=== FILE: types.dfy ===
/** The client's view-model task (client/src/types/index.ts). */
module Types {
  import opened Wrappers

  datatype Status = Todo | InProgress | Done

  datatype Priority = Low | Medium | High

  /**
   * A task as the client holds it. Instants are integer milliseconds since the
   * epoch (`Date.getTime()`); `None` is an absent or `undefined` field.
   */
  datatype Task = Task(
    id: string,
    title: string,
    description: Option<string>,
    status: Status,
    priority: Priority,
    createdAt: int,
    dueDate: Option<int>,
    hasNotification: Option<bool>,
    tags: Option<seq<string>>)
}

=== FILE: wrappers.dfy ===
/** Optional values: JavaScript's `undefined`/absent keys and C#'s `null`. */
module Wrappers {

  datatype Option<+T> = None | Some(value: T) {

    /** The wrapped value, or `default` when absent. */
    function GetOr(default: T): T {
      match this
      case Some(v) => v
      case None => default
    }
  }
}
